=== FILE: README.md ===
# Application controller model

A Dafny model of the application controller of the Workflow PaaS
controller (`rootfs/api/models/app.py`). An application owns instance
records: one per replica, each with a process type and an ordinal. The
controller scales those records to a requested structure. It derives the
names, label filters and commands it hands to the scheduler, runs one-off
commands in a fresh `run` instance, and lists the application's pods.

The model covers:

- The two field validators: the application identifier and the
  non-negative structure counts.
- `scale`:
  - the build and process-type checks;
  - the per-type plan, with the newest surplus records removed and fresh
    records numbered from one past the largest ordinal;
  - the `changed` flag;
  - execution through a bulk-capable scheduler or instance by instance;
  - the structure that is saved.
- The aggregate decisions of `_start_containers` and `_destroy_containers`.
- `_default_scale`'s choice of structure.
- `_get_job_id`, `_get_command` and `_scheduler_filter`.
- Restart's expansion of a short pod name.
- `run`: the ordinal of the new record and the single-quote escaping of
  the command.
- `list_pods`: `run` pods are dropped, then a stable sort puts the newest
  start time first.

Modules, in dependency order:

| module | file | contents |
|---|---|---|
| `Basics` | basics.dfy | `Option`, `Result` |
| `Text` | text.dfy | decimal rendering, character counts, Python's `str` order |
| `Records` | records.dfy | instance records, lifecycle states, builds, per-type views, ordinals |
| `Validators` | validators.dfy | identifier and structure validation |
| `Naming` | naming.dfy | release lookup, unit names, label filter, pod-name expansion, commands |
| `ScalePlan` | plan.dfy | the scale plan: type check, additions, removals, saved structure |
| `Lifecycle` | lifecycle.dfy | the scheduler as oracles, the create/start and destroy batches |
| `Scaling` | scale.dfy | `scale` end to end |
| `DefaultScale` | defaults.dfy | the default structure |
| `OneOff` | oneoff.dfy | `run` |
| `Pods` | pods.dfy | `list_pods` |

Modelling choices:

- Records are a sequence in creation order.
- A requested structure is a sequence of (type, count) pairs with
  distinct types, in the dict's iteration order.
- Python's `None` and empty values are both falsy in every test the
  controller makes. So a missing commit sha or Dockerfile is the empty
  string, and a missing Procfile is the empty map.
- The scheduler is a value of functions. For each record and phase it
  gives the state the call leaves the record in. For each process type it
  says whether a bulk scale succeeds. A flag says whether it has bulk
  primitives, which the source detects by probing for a `scale`
  attribute.
- Threads, database writes and log lines are not modelled. An operation
  returns the records that are persisted when it returns or raises.

Behaviour of the code worth knowing:

- Ordinals are not unique over an application's history. A new ordinal
  is one past the largest ordinal among the records that exist now
  (`Max('num')` over live records, lines 280-282). Ordinals are therefore
  reused after a type is scaled down, and a type scaled to zero restarts
  at 1 (`Scaling.ScaleToZeroResetsOrdinals`).
- `list_pods` swallows every `KubeHTTPException`, not only "not found".
  It then returns `None`, not an empty list (`Pods.NothingReturned`).
- Two failures of `scale` roll nothing back: a negative count that
  empties a type's list (line 291 raises) and a refused bulk scale
  (lines 353-356 re-raise). The records planned before the failure were
  already created by lines 295-304 and stay persisted
  (`Scaling.ScaleRejectsNegative`, `Scaling.Scale`). When a refused bulk
  scale only scaled up, repeating the same request therefore finds every
  count met. It reports no change and does not call the scheduler again
  (`Scaling.RefusedScaleUpIsNotRetried`). The per-instance path does
  clean up: a create failure destroys the whole batch (lines 367-371),
  and every record that reached `destroyed` is deleted (line 405).

## Model

| member | source | states |
|---|---|---|
| Validators.ValidateIdAsWritten | rootfs/api/models/app.py:27-33 | the identifier check as written accepts exactly the strings `^[a-z0-9-]+$` matches under Python's `re.match`, including one trailing line feed |
| Validators.TrailingNewlineAccepted | rootfs/api/models/app.py:31 | `"app\n"` passes the check as written but is not a name of lower-case letters, digits and hyphens |
| Validators.ValidateId | rootfs/api/models/app.py:27-33 | the corrected check accepts exactly the non-empty strings of lower-case letters, digits and hyphens, and rejects everything else as a bad identifier |
| Validators.ValidateStructure | rootfs/api/models/app.py:36-42 | a structure is accepted iff every count is at least zero; a rejection carries, as a witness, a type whose count is negative (the source's message names no type) |
| Naming.ResolveVersion | rootfs/api/models/app.py:591-594 | without a version the latest release is used and exists iff there is any release; with a version, that release is used and lookup fails iff it does not exist |
| Naming.JobIdInjective | rootfs/api/models/app.py:85-90 | within one application, `{app}-v{version}-{type}` names differ for different (version, type) pairs |
| Naming.SchedulerFilter | rootfs/api/models/app.py:587-602 | the filter holds exactly `app`, `version` (the resolved release's label) and, when a type was given, `type`; it fails exactly when the release lookup fails; joining its app, version and type labels with hyphens yields the unit name of that type in the selected release |
| Naming.ExpandPodName | rootfs/api/models/app.py:162-169 | a name with exactly one hyphen is prefixed with the application id and the resolved release's version label, failing iff the lookup fails; any other name is kept as it is |
| Naming.ExpandPodNameIdempotent | rootfs/api/models/app.py:162-169 | an expanded name has at least three hyphens, so expanding it again leaves it unchanged |
| Naming.Command | rootfs/api/models/app.py:92-105 | the command is empty exactly for the `cmd` type when no Procfile entry could be used (no build, or a Dockerfile/image build without a `cmd` entry); any other type without a usable entry runs `start {type}`; a build with a commit sha and no Dockerfile always runs `start {type}`, whatever its Procfile says |
| Naming.CommandUsesProcfile | rootfs/api/models/app.py:92-105 | a Procfile entry is used, wrapped as `bash -c '…'`, iff the build is a Dockerfile or image-only build that declares the type |
| Records.NextOrdinal | rootfs/api/models/app.py:281-282 | a new ordinal is at least 1, above every ordinal of its type in use, and either 1 or one past an ordinal in use |
| ScalePlan.AsMapSpec | rootfs/api/models/app.py:257 | a structure with distinct keys and its map agree: the map holds exactly the requested types, each mapped to its requested count |
| ScalePlan.FirstUndeclared | rootfs/api/models/app.py:260-267 | the type check passes iff every requested type is `cmd` or declared in the Procfile; otherwise it reports the first type that is neither |
| ScalePlan.PlanAdds | rootfs/api/models/app.py:278-304 | planning succeeds iff every requested count is non-negative; otherwise it stops at a type whose count is negative and every earlier count is non-negative |
| ScalePlan.PlanAddsUnderflow | rootfs/api/models/app.py:283-304 | an underflow happens at the first negative count, and the records created by then are exactly those planned for the types before it |
| ScalePlan.AnyChange | rootfs/api/models/app.py:284-288 | `changed` holds iff some requested count differs from the type's current count |
| ScalePlan.BeyondOfType | rootfs/api/models/app.py:290-293 | for each type, the records marked for removal are exactly the newest ones beyond the requested count |
| ScalePlan.TrimOfType | rootfs/api/models/app.py:290-293 | once every marked record has been deleted (line 357 on the bulk path, line 405 instance by instance), each requested type keeps exactly its oldest `requested` records, and other types are untouched |
| ScalePlan.TrimWithin | rootfs/api/models/app.py:290-293 | removal only deletes: every record left was there before, and duplicate-free records stay duplicate-free |
| ScalePlan.PlanAddsOfType | rootfs/api/models/app.py:295-304 | for each type, the created records are exactly the fresh records that type needs, and none for unrequested types |
| ScalePlan.TrimThenAddOfType | rootfs/api/models/app.py:284-304 | when every surplus record is deleted and each type's additions are appended, every type ends with its reference view: the oldest `requested` records, or the current ones followed by fresh ordinals, or the current ones when not requested |
| ScalePlan.PlanAddsFresh | rootfs/api/models/app.py:280-304 | every created record has a requested type and an ordinal above every ordinal of that type in use, and no record is created twice |
| ScalePlan.AdditionsMeetRequest | rootfs/api/models/app.py:284-304 | when no requested count is below the current one, the current records plus the planned ones meet every requested count |
| ScalePlan.PersistedKeepsRequest | rootfs/api/models/app.py:316-321 | when the records match the request, the saved structure keeps every requested count and adds the count of each other type that still has non-`run` records |
| Lifecycle.SelectPartition | rootfs/api/models/app.py:404-405 | the records that reached a state and those that did not together form a permutation of the batch |
| Lifecycle.DestroyContainers | rootfs/api/models/app.py:395-411 | an empty batch does nothing; a bulk scheduler deletes all records; otherwise exactly the destroyed records are deleted, the rest are kept, and the batch fails iff one was not destroyed |
| Lifecycle.StartContainers | rootfs/api/models/app.py:359-376 | the batch fails iff some record was not created, and then everything is destroyed: a create failure whose cleanup succeeded keeps no record, and the destroy error is reported if the cleanup fails too; otherwise all records stay and a warning is logged iff some record did not come up |
| Scaling.RejectedAt | rootfs/api/models/app.py:325-357 | the bulk loop stops at the first entry whose count changes and whose scale call fails: every earlier entry keeps its count or scales, and the stop position is the request's length when no entry fails |
| Scaling.FirstRejected | rootfs/api/models/app.py:325-357 | the bulk path aborts at the first type whose count changes and whose scale call fails; it completes iff no such type exists |
| Scaling.Scale | rootfs/api/models/app.py:249-323 | no build is an error with nothing changed; an undeclared type is rejected iff one is requested, with the records untouched; it succeeds iff there is a build, every type is declared, every count is non-negative and a request that changes something is carried out without error; `changed` iff some count differs; an unchanged scale touches no record and logs no warning. On failure: a negative count leaves the records created so far; a refused bulk scale leaves every created record and deletes nothing; a failed create leaves the records as they were; a failed destroy leaves the created records that were not destroyed (start phase) or the records minus the destroyed surplus plus the created ones (removal phase) |
| Scaling.Execute | rootfs/api/models/app.py:306-314 | a changing scale fails on the bulk path iff some changed type's scale call is refused, and on the per-instance path iff some created record was not created or some surplus record was not destroyed; a bulk failure names the first refused type; a per-instance success warns iff some created record did not come up |
| Scaling.ExecuteShape | rootfs/api/models/app.py:306-314 | a successful execution deleted every record marked for removal and appended the created ones |
| Scaling.ScaleRejectsNegative | rootfs/api/models/app.py:283-304 | a negative count that passes validation raises at the first negative type, and the records planned for the earlier types stay persisted |
| Scaling.ScaleOfType | rootfs/api/models/app.py:278-314 | after a successful scale each type's records are its reference view: the oldest `requested` when scaling down, the current ones plus fresh ordinals when scaling up, unchanged when not requested |
| Scaling.ScaleReachesRequest | rootfs/api/models/app.py:278-314 | after a successful scale every requested type has exactly the requested count, and every other type keeps its count |
| Scaling.ScaleIdempotent | rootfs/api/models/app.py:284-286 | repeating a successful scale reports no change, touches no record and saves the same structure, whatever the scheduler does |
| Scaling.ScalePersistsRequest | rootfs/api/models/app.py:316-321 | the saved structure has the requested types plus the types with non-`run` records; requested counts are kept, and each other entry is a positive count of a non-`run` type |
| Scaling.ScaleFreshOrdinals | rootfs/api/models/app.py:280-303 | records created by a scale are numbered above every ordinal of their type in use before; duplicate-free records stay duplicate-free |
| Scaling.ScaleToZeroResetsOrdinals | rootfs/api/models/app.py:281-282 | after a type is scaled to zero, its next ordinal is 1 again |
| Scaling.RefusedScaleUpIsNotRetried | rootfs/api/models/app.py:295-356 | a refused bulk scale-up fails with the created records persisted, and repeating the request then reports no change without calling the scheduler |
| DefaultScale.DefaultStructure | rootfs/api/models/app.py:472-488 | the default structure is one `cmd` or one `web` process; it is `web` iff the build has a commit sha and either its Procfile declares `web` or it has neither a Procfile nor a Dockerfile; without a commit sha it is `cmd`, whatever else the build has |
| DefaultScale.DefaultPassesScaleCheck | rootfs/api/models/app.py:472-488 | the default structure passes `scale`'s type check except for a plain buildpack build with no Procfile and no Dockerfile |
| OneOff.Escape | rootfs/api/models/app.py:543 | escaping adds three characters per single quote |
| OneOff.EscapeReadsBack | rootfs/api/models/app.py:543 | inside a single-quoted shell word, an escaped string reads back as the original, and the shell is still inside the quotes afterwards |
| OneOff.QuotedEscapeIsLiteral | rootfs/api/models/app.py:543 | wrapped in single quotes, an escaped command is one shell word whose value is exactly the command |
| OneOff.RunOnce | rootfs/api/models/app.py:527-544 | `run` fails iff there is no build; otherwise the new record is a fresh `run` record numbered one past the largest `run` ordinal, and its quoted command reads back as the original |
| Pods.Projected | rootfs/api/models/app.py:557-575 | the projection keeps exactly the projections of the non-`run` pods, each stamped with its own clock reading when it has no start time, and is never longer than the input |
| Pods.ProjectedOne | rootfs/api/models/app.py:560-575 | a single pod is dropped when it is a `run` pod and projected otherwise |
| Pods.ProjectedAppend | rootfs/api/models/app.py:557-575 | projection distributes over concatenation, so it keeps the scheduler's order and every non-`run` pod, duplicates included |
| Pods.SortNewestFirstCorrect | rootfs/api/models/app.py:577 | the sort is a permutation, ordered newest start time first, and stable among pods with equal start times |
| Pods.ListPods | rootfs/api/models/app.py:546-585 | an HTTP error yields nothing, another error is re-raised, and otherwise the result is exactly the non-`run` pods in the scheduler's order, each stamped with its own clock reading when it has no start time, then sorted newest first, stable on ties |

## Left out

- `deploy` and `_deploy_app` (lines 413-470): they clone records onto a new release through the scheduler's deploy call. That call lives in code that is not part of this model.
- `restart`: only the short-name expansion is modelled. The pod deletion, the five-second poll up to 300 seconds and the desired-count sum over replication controllers are clock- and scheduler-driven and are left out.
- `_restart_containers` and `restart_old`: not reached from the modelled operations.
- `logs` and `_clean_app_logs`: HTTP calls to the log service.
- `create`, `delete`, `save`, `validate_reserved_names`: ORM and scheduler bookkeeping outside the scaling core.
- `_default_scale`'s final step (lines 490-499), which hands the chosen structure to `_deploy_app` or creates and starts the records: only the choice of structure is modelled.
- Audit messages (`log_event`) and the concurrency of the per-record threads. Every phase ends at a join before its aggregate decision, so each decision is modelled as a function of the states the calls left.
- Validators.ValidateStructure: takes integer counts. The source's `int(v)` conversion of string values, and its rejection of values that do not parse, are not modelled.
- Scaling.Scale: the source walks `to_remove` by popping from the end of each type's list. The model removes records by their rank within the type, which selects the same records.
- Scaling.Scale: a single `bulk` flag decides both the scale path and the destroy path. The source probes the same attribute in both places.
- Pods.ListPods: takes the scheduler's pod list as an input. The single-name fetch and the label query are not modelled. The clock is a parameter: one reading per pod, used when the pod has no start time. A failing release lookup while building the label filter is re-raised by the source; `Naming.SchedulerFilter` models that lookup.
- Naming.Command: assumes the application has a release. The source's `release_set.latest()` raises when there is none, and that exception is not caught here.

## Findings

| source | as written | input that shows it | evidently intended | confidence | as-written member | corrected member |
|---|---|---|---|---|---|---|
| rootfs/api/models/app.py:31 | `re.match(r'^[a-z0-9-]+$', value)`: Python's `$` also matches before a final line feed | `"app\n"` is accepted | only lower-case letters, digits and hyphens, as the error message says (`\Z` or `re.fullmatch`) | high that the pattern accepts it; low impact where another field validator also rejects it; not executed | Validators.ValidateIdAsWritten, Validators.TrailingNewlineAccepted | Validators.ValidateId |

=== FILE: basics.dfy ===
/** Failure-carrying result types shared by every part of the controller model. */
module Basics {

  /** A value that may be absent (Python's `None`). */
  datatype Option<+T> = None | Some(value: T)

  /** The outcome of an operation that either returns a value or raises. */
  datatype Result<+T, +E> = Ok(value: T) | Err(error: E)
}

=== FILE: defaults.dfy ===
/** `_default_scale`: the structure an application is given on its first
    deploy when no structure was requested yet. */
module DefaultScale {
  import opened Records
  import opened ScalePlan

  /** The default structure, chosen in priority order: an image promotion
      (no commit sha) runs the image's own command; so does a Dockerfile
      build without a Procfile, and a Procfile build without a `web`
      entry; everything else gets one `web` process. So a `web` process is
      the default exactly for builds from source whose Procfile declares
      `web`, or that have neither a Procfile nor a Dockerfile (a plain
      buildpack build), and without a commit sha the first rule wins
      whatever the Dockerfile and Procfile say. */
  function DefaultStructure(b: Build): (r: Request)
    ensures r == [(Cmd, 1)] || r == [(Web, 1)]
    ensures r == [(Web, 1)] <==>
              HasSha(b) && (Web in b.procfile || (!HasProcfile(b) && !HasDockerfile(b)))
    ensures !HasSha(b) ==> r == [(Cmd, 1)]
  {
    assert Web in b.procfile ==> HasProcfile(b);
    if !HasSha(b) then [(Cmd, 1)]
    else if HasDockerfile(b) && !HasProcfile(b) then [(Cmd, 1)]
    else if HasProcfile(b) && Web !in b.procfile then [(Cmd, 1)]
    else [(Web, 1)]
  }

  /** The default passes the type check of `scale` except for a plain
      buildpack build, whose default `web` process its (empty) Procfile
      does not declare. */
  lemma DefaultPassesScaleCheck(b: Build)
    ensures FirstUndeclared(DefaultStructure(b), b.procfile).None? <==>
              !(HasSha(b) && !HasDockerfile(b) && !HasProcfile(b))
  {
    var r := DefaultStructure(b);
    if !HasProcfile(b) {
      assert Web !in b.procfile;
    }
  }
}

=== FILE: lifecycle.dfy ===
/** The bulk lifecycle helpers: drive a batch of instance records through a
    scheduler phase and take the aggregate decision once every call has
    returned. The scheduler's answers are inputs: for each record and
    phase, the state the call left it in. */
module Lifecycle {
  import opened Basics
  import opened Records

  /** The scheduler as the controller sees it. `bulk` says whether it
      offers native bulk primitives (the source probes for a `scale`
      attribute); `scales` says whether the bulk scale of a process type
      succeeds; `create`, `start` and `destroy` give the state each
      per-instance call leaves a record in. */
  datatype Scheduler = Scheduler(
    bulk: bool,
    scales: string -> bool,
    create: Instance -> State,
    start: Instance -> State,
    destroy: Instance -> State)

  /** The runtime errors a batch can end with. */
  datatype BatchError =
    | CreateFailed   // 'aborting, failed to create some containers'
    | DestroyFailed  // 'aborting, failed to destroy some containers'

  /** Whether every record of the batch reached `s` in a phase. */
  function AllReach(batch: seq<Instance>, phase: Instance -> State, s: State): (r: bool)
    ensures r <==> forall x :: x in batch ==> phase(x) == s
    decreases |batch|
  {
    if |batch| == 0 then true
    else
      assert forall x :: x in batch <==> x == batch[0] || x in batch[1..];
      phase(batch[0]) == s && AllReach(batch[1..], phase, s)
  }

  /** The records of the batch that reached `s` (`reached`) or not, in order. */
  function Select(batch: seq<Instance>, phase: Instance -> State, s: State, reached: bool)
    : seq<Instance>
    decreases |batch|
  {
    if |batch| == 0 then []
    else
      (if (phase(batch[0]) == s) == reached then [batch[0]] else [])
      + Select(batch[1..], phase, s, reached)
  }

  /** A selection holds exactly the batch's records on the chosen side. */
  lemma {:induction false} SelectMembers(batch: seq<Instance>, phase: Instance -> State, s: State, reached: bool)
    ensures forall x :: x in Select(batch, phase, s, reached) <==> x in batch && (phase(x) == s) == reached
    decreases |batch|
  {
    if |batch| > 0 {
      SelectMembers(batch[1..], phase, s, reached);
      assert forall x :: x in batch <==> x == batch[0] || x in batch[1..];
    }
  }

  /** The first record of a batch lands in exactly one of the two selections. */
  lemma SelectFirst(batch: seq<Instance>, phase: Instance -> State, s: State)
    requires |batch| > 0
    ensures var yes1 := Select(batch[1..], phase, s, true);
            var no1 := Select(batch[1..], phase, s, false);
            if phase(batch[0]) == s
            then Select(batch, phase, s, true) == [batch[0]] + yes1 && Select(batch, phase, s, false) == no1
            else Select(batch, phase, s, true) == yes1 && Select(batch, phase, s, false) == [batch[0]] + no1
  {
    var yes1, no1 := Select(batch[1..], phase, s, true), Select(batch[1..], phase, s, false);
    if phase(batch[0]) == s {
      assert Select(batch, phase, s, false) == [] + no1;
      assert [] + no1 == no1;
    } else {
      assert Select(batch, phase, s, true) == [] + yes1;
      assert [] + yes1 == yes1;
    }
  }

  lemma UnionRegroup(x: multiset<Instance>, a: multiset<Instance>, b: multiset<Instance>)
    ensures (x + a) + b == x + (a + b) && a + (x + b) == x + (a + b)
  {
  }

  /** Selecting the records that reached a state and those that did not
      splits the batch: together they are a permutation of it. */
  lemma {:induction false} SelectPartition(batch: seq<Instance>, phase: Instance -> State, s: State)
    ensures multiset(Select(batch, phase, s, true)) + multiset(Select(batch, phase, s, false))
            == multiset(batch)
    decreases |batch|
  {
    if |batch| > 0 {
      var rest := batch[1..];
      var yes1, no1 := Select(rest, phase, s, true), Select(rest, phase, s, false);
      SelectPartition(rest, phase, s);
      SelectFirst(batch, phase, s);
      assert multiset(batch) == multiset{batch[0]} + multiset(rest) by {
        assert batch == [batch[0]] + rest;
      }
      var one := multiset{batch[0]};
      UnionRegroup(one, multiset(yes1), multiset(no1));
      if phase(batch[0]) == s {
        assert multiset([batch[0]] + yes1) == one + multiset(yes1);
      } else {
        assert multiset([batch[0]] + no1) == one + multiset(no1);
      }
    }
  }

  /** What a destroy batch did: the records whose persisted entry was
      deleted, the records kept, and whether the batch failed. */
  datatype DestroyReport = DestroyReport(deleted: seq<Instance>, kept: seq<Instance>, failed: bool)

  /** `_destroy_containers`. With a bulk-capable scheduler the records are
      simply deleted. Otherwise every record is destroyed, exactly those
      that reached `destroyed` are deleted, and any other makes the batch
      fail. An empty batch does nothing. */
  function DestroyContainers(batch: seq<Instance>, sched: Scheduler): (r: DestroyReport)
    ensures multiset(r.deleted) + multiset(r.kept) == multiset(batch)
    ensures |batch| == 0 ==> r == DestroyReport([], [], false)
    ensures sched.bulk ==> r.deleted == batch && !r.failed
    ensures !sched.bulk ==>
              forall x :: x in r.deleted <==> x in batch && sched.destroy(x) == Destroyed
    ensures !sched.bulk ==>
              forall x :: x in r.kept <==> x in batch && sched.destroy(x) != Destroyed
    ensures !sched.bulk ==>
              (r.failed <==> exists x :: x in batch && sched.destroy(x) != Destroyed)
    ensures !r.failed ==> r.kept == []
  {
    if |batch| == 0 then DestroyReport([], [], false)
    else if sched.bulk then DestroyReport(batch, [], false)
    else
      SelectPartition(batch, sched.destroy, Destroyed);
      SelectMembers(batch, sched.destroy, Destroyed, true);
      SelectMembers(batch, sched.destroy, Destroyed, false);
      var kept := Select(batch, sched.destroy, Destroyed, false);
      assert kept != [] ==> kept[0] in kept;
      DestroyReport(Select(batch, sched.destroy, Destroyed, true), kept,
                    !AllReach(batch, sched.destroy, Destroyed))
  }

  /** What a create+start batch did: the error it ended with, if any, the
      records still persisted afterwards, and whether a warning was logged
      because some record did not come up. */
  datatype StartReport = StartReport(failure: Option<BatchError>, kept: seq<Instance>, warned: bool)

  /** `_start_containers`. Creation is all-or-nothing: if any record did not
      reach `created`, the whole batch is destroyed and the call fails
      (with the destroy error if that fails too). Starting is best effort:
      a record that does not come `up` only causes a warning. */
  function StartContainers(batch: seq<Instance>, sched: Scheduler): (r: StartReport)
    ensures r.failure.Some? <==> exists x :: x in batch && sched.create(x) != Created
    ensures r.failure.None? ==> r.kept == batch
    ensures r.failure.Some? && !sched.bulk ==>
              forall x :: x in r.kept <==> x in batch && sched.destroy(x) != Destroyed
    ensures r.failure.Some? && sched.bulk ==> r.kept == []
    ensures r.failure == Some(CreateFailed) ==> r.kept == []
    ensures r.failure == Some(DestroyFailed) <==>
              r.failure.Some? && !sched.bulk && exists x :: x in batch && sched.destroy(x) != Destroyed
    ensures r.warned <==> r.failure.None? && exists x :: x in batch && sched.start(x) != Up
  {
    if |batch| == 0 then StartReport(None, batch, false)
    else if !AllReach(batch, sched.create, Created) then
      var d := DestroyContainers(batch, sched);
      StartReport(Some(if d.failed then DestroyFailed else CreateFailed), d.kept, false)
    else
      StartReport(None, batch, !AllReach(batch, sched.start, Up))
  }
}

=== FILE: naming.dfy ===
/** Names and commands the controller derives for the scheduler: release
    lookup, workload-unit names (`{app}-v{version}-{type}`), the label
    filter used to select pods, the short pod-name expansion of restart,
    and the container command of a process type. */
module Naming {
  import opened Basics
  import opened Text
  import opened Records

  /** A release that was asked for by version does not exist
      (`Release.DoesNotExist`), or the application has none at all. */
  datatype LookupError = NoSuchRelease

  /** Largest version in `versions` (`release_set.latest()`); none when empty. */
  function LatestVersion(versions: seq<nat>): (r: Option<nat>)
    ensures r.None? <==> |versions| == 0
    ensures r.Some? ==> r.value in versions && forall v :: v in versions ==> v <= r.value
    decreases |versions|
  {
    if |versions| == 0 then None
    else
      assert forall v :: v in versions ==> v == versions[0] || v in versions[1..];
      match LatestVersion(versions[1..])
      case None => Some(versions[0])
      case Some(m) => Some(if versions[0] > m then versions[0] else m)
  }

  /** The release a request refers to: the latest when no version is given,
      otherwise the one with that version, which must exist. */
  function ResolveVersion(versions: seq<nat>, requested: Option<nat>): (r: Result<nat, LookupError>)
    ensures requested.Some? ==> (r.Ok? <==> requested.value in versions)
    ensures requested.Some? && r.Ok? ==> r.value == requested.value
    ensures requested.None? ==> (r.Ok? <==> |versions| > 0)
    ensures r.Ok? ==> r.value in versions
    ensures requested.None? && r.Ok? ==> forall v :: v in versions ==> v <= r.value
  {
    match requested
    case Some(v) => if v in versions then Ok(v) else Err(NoSuchRelease)
    case None =>
      match LatestVersion(versions)
      case Some(v) => Ok(v)
      case None => Err(NoSuchRelease)
  }

  /** The version label `v{n}` used in names and pod labels. */
  function VersionLabel(version: nat): string {
    "v" + NatToString(version)
  }

  /** Name of the scheduler workload unit of one process type of one release. */
  function JobId(app: string, version: nat, kind: string): string {
    app + "-" + VersionLabel(version) + "-" + kind
  }

  /** Splitting at the first hyphen: if neither `a` nor `b` contains a
      hyphen, `a-x == b-y` forces `a == b` and `x == y`. */
  lemma SplitAtHyphen(a: string, x: string, b: string, y: string)
    requires '-' !in a && '-' !in b
    requires a + "-" + x == b + "-" + y
    ensures a == b && x == y
  {
    var s := a + "-" + x;
    assert forall i :: 0 <= i < |a| ==> s[i] == a[i] && s[i] != '-';
    assert forall i :: 0 <= i < |b| ==> s[i] == b[i] && s[i] != '-';
    assert s[|a|] == '-' && s[|b|] == '-';
    assert a == s[..|a|] == b;
    assert x == s[|a| + 1..] == y;
  }

  lemma DigitsHaveNoHyphen(s: string)
    requires AllDigits(s)
    ensures '-' !in s
  {
  }

  /** Within one application, distinct (version, type) pairs name distinct
      workload units: the version digits never contain the separator. */
  lemma JobIdInjective(app: string, v1: nat, t1: string, v2: nat, t2: string)
    requires JobId(app, v1, t1) == JobId(app, v2, t2)
    ensures v1 == v2 && t1 == t2
  {
    var n1, n2 := NatToString(v1), NatToString(v2);
    DigitsHaveNoHyphen(n1);
    DigitsHaveNoHyphen(n2);
    var p := app + "-v";
    assert JobId(app, v1, t1) == p + (n1 + "-" + t1);
    assert JobId(app, v2, t2) == p + (n2 + "-" + t2);
    assert n1 + "-" + t1 == (p + (n1 + "-" + t1))[|p|..];
    assert n2 + "-" + t2 == (p + (n2 + "-" + t2))[|p|..];
    SplitAtHyphen(n1, t1, n2, t2);
    NatToStringInjective(v1, v2);
  }

  /** The pod label filter: the application, the resolved release's version
      label and, when a type was given, the type. The filter agrees with the
      workload-unit name: joining its labels with hyphens yields the name of
      that type's unit in the selected release. */
  function SchedulerFilter(app: string, versions: seq<nat>, requested: Option<nat>, kind: Option<string>)
    : (r: Result<map<string, string>, LookupError>)
    ensures r.Ok? <==> ResolveVersion(versions, requested).Ok?
    ensures r.Ok? ==> r.value.Keys == {"app", "version"} + (if kind.Some? then {"type"} else {})
    ensures r.Ok? ==> r.value["app"] == app
    ensures r.Ok? ==> r.value["version"] == VersionLabel(ResolveVersion(versions, requested).value)
    ensures r.Ok? && kind.Some? ==> r.value["type"] == kind.value
    ensures r.Ok? && kind.Some? ==>
              r.value["app"] + "-" + r.value["version"] + "-" + r.value["type"]
              == JobId(app, ResolveVersion(versions, requested).value, kind.value)
  {
    match ResolveVersion(versions, requested)
    case Err(e) => Err(e)
    case Ok(v) =>
      var labels := map["app" := app, "version" := VersionLabel(v)];
      Ok(if kind.Some? then labels["type" := kind.value] else labels)
  }

  /** Restart's short-form name expansion: a pod name with exactly one
      hyphen (`worker-asdfg`) is prefixed with the application id and the
      version label of the given or latest release. Any other name is used
      as it stands, and no release is looked up for it. */
  function ExpandPodName(id: string, name: string, versions: seq<nat>, requested: Option<nat>)
    : (r: Result<string, LookupError>)
    ensures CountChar(name, '-') != 1 ==> r == Ok(name)
    ensures CountChar(name, '-') == 1 ==>
              (r.Ok? <==> ResolveVersion(versions, requested).Ok?)
    ensures CountChar(name, '-') == 1 && r.Ok? ==>
              r.value == JobId(id, ResolveVersion(versions, requested).value, name)
  {
    if CountChar(name, '-') == 1 then
      match ResolveVersion(versions, requested)
      case Err(e) => Err(e)
      case Ok(v) => Ok(id + "-" + VersionLabel(v) + "-" + name)
    else Ok(name)
  }

  /** An expanded name has at least three hyphens, so expanding it again
      leaves it as it is: the expansion is idempotent. */
  lemma {:induction false} ExpandPodNameIdempotent(id: string, name: string, versions: seq<nat>, requested: Option<nat>)
    requires ExpandPodName(id, name, versions, requested).Ok?
    ensures var once := ExpandPodName(id, name, versions, requested).value;
            ExpandPodName(id, once, versions, requested) == Ok(once)
  {
    var once := ExpandPodName(id, name, versions, requested).value;
    if CountChar(name, '-') == 1 {
      var v := ResolveVersion(versions, requested).value;
      var digits := NatToString(v);
      DigitsHaveNoHyphen(digits);
      assert once == id + "-" + ("v" + digits) + "-" + name;
      CountCharAppend(id + "-" + ("v" + digits) + "-", name, '-');
      CountCharAppend(id + "-" + ("v" + digits), "-", '-');
      CountCharAppend(id + "-", "v" + digits, '-');
      CountCharAppend(id, "-", '-');
      CountCharAppend("v", digits, '-');
      assert CountChar("-", '-') == 1;
      assert CountChar(once, '-') >= 3;
    }
  }

  /** The command a process type's containers run (`_get_command`).
      Dockerfile builds and image-only builds (no commit sha) run the
      Procfile entry under `bash -c '...'`; buildpack builds run
      `start {type}`. A missing build, Procfile or entry falls back to
      `start {type}`, except that the reserved `cmd` type then gets the
      empty command so that the image's own entrypoint runs. The empty
      command is thus produced only for `cmd`, and only when no Procfile
      entry for it could be used; a buildpack build always runs
      `start {type}`, whatever its Procfile declares. */
  function Command(build: Option<Build>, kind: string): (r: string)
    ensures r == "" <==>
              kind == Cmd
              && (build.None?
                  || ((HasDockerfile(build.value) || !HasSha(build.value))
                      && Cmd !in build.value.procfile))
    ensures build.Some? && HasSha(build.value) && !HasDockerfile(build.value) ==>
              r == "start " + kind
    ensures kind != Cmd
            && !(build.Some? && kind in build.value.procfile
                 && (HasDockerfile(build.value) || !HasSha(build.value))) ==>
              r == "start " + kind
  {
    var fallback := if kind == Cmd then "" else "start " + kind;
    match build
    case None => fallback
    case Some(b) =>
      if HasDockerfile(b) || !HasSha(b) then
        if kind in b.procfile then "bash -c '" + b.procfile[kind] + "'" else fallback
      else "start " + kind
  }

  /** A Procfile entry is used exactly for Dockerfile or image-only builds
      that declare the type; it is then wrapped as one `bash -c` argument. */
  lemma CommandUsesProcfile(build: Option<Build>, kind: string)
    ensures (exists b :: build == Some(b) && kind in b.procfile
                         && Command(build, kind) == "bash -c '" + b.procfile[kind] + "'")
            <==>
            (build.Some? && kind in build.value.procfile
             && (HasDockerfile(build.value) || !HasSha(build.value)))
  {
    if build.Some? && kind in build.value.procfile
       && !(HasDockerfile(build.value) || !HasSha(build.value)) {
      var r := Command(build, kind);
      assert r == "start " + kind;
      assert r[0] == 's';
      assert ("bash -c '" + build.value.procfile[kind] + "'")[0] == 'b';
    }
  }
}

=== FILE: oneoff.dfy ===
/** `App.run`: a one-off command in a new `run` instance, whose ordinal is
    one past the largest `run` ordinal and whose command is shell-escaped
    for use inside single quotes. */
module OneOff {
  import opened Basics
  import opened Text
  import opened Records

  /** Each `'` becomes `'\''`: close the quote, an escaped quote, reopen
      the quote. Every other character is kept as it is. */
  function Escape(s: string): (r: string)
    ensures |r| == |s| + 3 * CountChar(s, '\'')
    decreases |s|
  {
    if |s| == 0 then ""
    else (if s[0] == '\'' then "'\\''" else [s[0]]) + Escape(s[1..])
  }

  function Prefixed(s: string, o: Option<string>): Option<string> {
    match o
    case None => None
    case Some(t) => Some(s + t)
  }

  /** The value a POSIX shell gives a word made of literal characters,
      single-quoted stretches and backslash escapes (section 2.2 of the
      POSIX Shell Command Language), starting inside a single-quoted
      stretch when `quoted` holds. None for an unterminated quote or a
      trailing backslash. Blanks and expansions are outside this model. */
  function ShellWord(w: string, quoted: bool): Option<string>
    decreases |w|
  {
    if |w| == 0 then (if quoted then None else Some(""))
    else if quoted then
      if w[0] == '\'' then ShellWord(w[1..], false)
      else Prefixed([w[0]], ShellWord(w[1..], true))
    else if w[0] == '\'' then ShellWord(w[1..], true)
    else if w[0] == '\\' then
      if |w| == 1 then None else Prefixed([w[1]], ShellWord(w[2..], false))
    else Prefixed([w[0]], ShellWord(w[1..], false))
  }

  lemma PrefixedTwice(a: string, b: string, o: Option<string>)
    ensures Prefixed(a, Prefixed(b, o)) == Prefixed(a + b, o)
  {
    match o
    case None =>
    case Some(t) => assert a + (b + t) == (a + b) + t;
  }

  /** Inside a single-quoted stretch, the four characters `'\''` read as
      one quote, and the shell is back inside a quoted stretch. */
  lemma EscapedQuoteStep(rest: string)
    ensures ShellWord("'\\''" + rest, true) == Prefixed("'", ShellWord(rest, true))
  {
    var w := "'\\''" + rest;
    var w1 := "\\''" + rest;
    var w3 := "'" + rest;
    assert w[0] == '\'' && w[1..] == w1;
    assert w1[0] == '\\' && w1[1] == '\'' && |w1| > 1 && w1[2..] == w3;
    assert w3[0] == '\'' && w3[1..] == rest;
    assert ShellWord(w, true) == ShellWord(w1, false);
    assert ShellWord(w1, false) == Prefixed("'", ShellWord(w3, false));
    assert ShellWord(w3, false) == ShellWord(rest, true);
  }

  /** Inside a single-quoted stretch, any character but `'` is literal. */
  lemma QuotedCharStep(c: char, rest: string)
    requires c != '\''
    ensures ShellWord([c] + rest, true) == Prefixed([c], ShellWord(rest, true))
  {
    assert ([c] + rest)[1..] == rest;
  }

  /** Reading the escape of a nonempty string yields its first character,
      then the reading of the escape of the rest. */
  lemma EscapeFirst(s: string, tail: string)
    requires |s| > 0
    ensures ShellWord(Escape(s) + tail, true)
            == Prefixed([s[0]], ShellWord(Escape(s[1..]) + tail, true))
  {
    var rest := Escape(s[1..]) + tail;
    if s[0] == '\'' {
      assert Escape(s) + tail == "'\\''" + rest;
      EscapedQuoteStep(rest);
    } else {
      assert Escape(s) + tail == [s[0]] + rest;
      QuotedCharStep(s[0], rest);
    }
  }

  /** Inside a single-quoted stretch, an escaped string reads back as the
      original, and the shell resumes in quoted mode after it. */
  lemma {:induction false} EscapeReadsBack(s: string, tail: string)
    ensures ShellWord(Escape(s) + tail, true) == Prefixed(s, ShellWord(tail, true))
    decreases |s|
  {
    if |s| == 0 {
      assert Escape(s) + tail == tail;
      match ShellWord(tail, true)
      case None =>
      case Some(t) => assert s + t == t;
    } else {
      EscapeReadsBack(s[1..], tail);
      EscapeFirst(s, tail);
      PrefixedTwice([s[0]], s[1..], ShellWord(tail, true));
      assert [s[0]] + s[1..] == s;
    }
  }

  /** Wrapped in single quotes, the escaped command is one shell word whose
      value is exactly the command: a quote in it cannot end the word. */
  lemma QuotedEscapeIsLiteral(s: string)
    ensures ShellWord("'" + Escape(s) + "'", false) == Some(s)
  {
    var w := "'" + Escape(s) + "'";
    assert w[1..] == Escape(s) + "'";
    EscapeReadsBack(s, "'");
    assert ShellWord("'", true) == Some("");
    assert s + "" == s;
  }

  datatype RunError = NoBuildToRun

  /** The new record and the escaped command handed to it. */
  datatype RunPlan = RunPlan(record: Instance, command: string)

  /** `App.run` without its audit entry and the scheduler call: refuse when
      the latest release has no build, otherwise number a new `run` record
      one past the largest `run` ordinal and escape the command. */
  function RunOnce(records: seq<Instance>, build: Option<Build>, command: string)
    : (r: Result<RunPlan, RunError>)
    ensures r.Err? <==> build.None?
    ensures r.Ok? ==> r.value.record.kind == Run && r.value.record !in records
    ensures r.Ok? ==> forall x :: x in records && x.kind == Run ==> x.num < r.value.record.num
    ensures r.Ok? ==> r.value.record.num == 1
                      || exists x :: x in records && x.kind == Run && x.num == r.value.record.num - 1
    ensures r.Ok? ==> ShellWord("'" + r.value.command + "'", false) == Some(command)
  {
    if build.None? then Err(NoBuildToRun)
    else
      QuotedEscapeIsLiteral(command);
      Ok(RunPlan(Instance(Run, NextOrdinal(records, Run)), Escape(command)))
  }
}

=== FILE: plan.dfy ===
/** The planning half of `scale`: validating the requested structure against
    the build, diffing requested against current counts per process type,
    choosing the records to add (ordinals continuing past the largest in
    use) and to remove (the newest of the type), and the structure that is
    persisted afterwards. */
module ScalePlan {
  import opened Basics
  import opened Records

  /** A requested structure in the caller's key order: a Python dict from
      process type to replica count. */
  type Request = seq<(string, int)>

  predicate DistinctKeys(req: Request) {
    forall i, j :: 0 <= i < j < |req| ==> req[i].0 != req[j].0
  }

  function Keys(req: Request): set<string> {
    set i | 0 <= i < |req| :: req[i].0
  }

  /** The request as a map from process type to count. */
  function AsMap(req: Request): map<string, int>
    decreases |req|
  {
    if |req| == 0 then map[] else AsMap(req[1..])[req[0].0 := req[0].1]
  }

  /** A request with distinct keys and its map agree: the same keys, and
      each key mapped to its requested count. */
  lemma {:induction false} AsMapSpec(req: Request)
    requires DistinctKeys(req)
    ensures AsMap(req).Keys == Keys(req)
    ensures forall i :: 0 <= i < |req| ==> AsMap(req)[req[i].0] == req[i].1
    decreases |req|
  {
    if |req| > 0 {
      var rest := req[1..];
      assert DistinctKeys(rest) by {
        forall i, j | 0 <= i < j < |rest|
          ensures rest[i].0 != rest[j].0
        {
          assert rest[i] == req[i + 1] && rest[j] == req[j + 1];
        }
      }
      AsMapSpec(rest);
      assert Keys(req) == Keys(rest) + {req[0].0} by {
        forall k | k in Keys(req)
          ensures k in Keys(rest) + {req[0].0}
        {
          var i :| 0 <= i < |req| && req[i].0 == k;
          if i > 0 {
            assert rest[i - 1] == req[i];
          }
        }
      }
      forall i | 1 <= i < |req|
        ensures AsMap(req)[req[i].0] == req[i].1
      {
        assert rest[i - 1] == req[i];
        assert req[i].0 != req[0].0;
      }
    }
  }

  /** A process type the build lets a caller scale: one its Procfile
      declares, or the reserved `cmd` type, which is always allowed. */
  predicate Declared(procfile: map<string, string>, kind: string) {
    kind == Cmd || kind in procfile
  }

  /** The first requested process type the build does not declare, which
      is the one the source reports. */
  function FirstUndeclared(req: Request, procfile: map<string, string>): (r: Option<string>)
    ensures r.None? <==> forall i :: 0 <= i < |req| ==> Declared(procfile, req[i].0)
    ensures r.Some? ==> exists i :: 0 <= i < |req| && req[i].0 == r.value
                                    && !Declared(procfile, r.value)
                                    && forall j :: 0 <= j < i ==> Declared(procfile, req[j].0)
    decreases |req|
  {
    if |req| == 0 then None
    else if !Declared(procfile, req[0].0) then Some(req[0].0)
    else
      var r := FirstUndeclared(req[1..], procfile);
      assert r.Some? ==> exists i :: 1 <= i < |req| && req[i].0 == r.value
                                     && !Declared(procfile, r.value)
                                     && forall j :: 0 <= j < i ==> Declared(procfile, req[j].0)
      by {
        if r.Some? {
          var i :| 0 <= i < |req[1..]| && req[1..][i].0 == r.value
                   && !Declared(procfile, r.value)
                   && forall j :: 0 <= j < i ==> Declared(procfile, req[1..][j].0);
          assert req[i + 1].0 == r.value;
          assert forall j :: 1 <= j < i + 1 ==> Declared(procfile, req[j].0) by {
            forall j | 1 <= j < i + 1
              ensures Declared(procfile, req[j].0)
            {
              assert req[j] == req[1..][j - 1];
            }
          }
        }
      }
      r
  }

  /** The records created for one process type: none unless the request
      exceeds the current count; otherwise the shortfall, numbered from one
      past the largest ordinal of the type. */
  function Additions(records: seq<Instance>, kind: string, requested: int): seq<Instance> {
    var current := Count(records, kind);
    if requested > current
    then Fresh(kind, NextOrdinal(records, kind), requested - current)
    else []
  }

  /** The outcome of the planning loop: the records created, or an
      underflow at the first negative count. A negative count makes the
      source pop past the end of the type's record list (an `IndexError`)
      after the records of earlier types were already created. */
  datatype Planned =
    | Planned(added: seq<Instance>)
    | Underflow(kind: string, created: seq<Instance>)

  /** Position of the first negative count in the request, or its length
      when there is none. */
  function FirstNegative(req: Request): (i: nat)
    ensures i <= |req|
    ensures forall j :: 0 <= j < i ==> req[j].1 >= 0
    ensures i < |req| ==> req[i].1 < 0
    decreases |req|
  {
    if |req| == 0 then 0
    else if req[0].1 < 0 then 0
    else
      var k := FirstNegative(req[1..]);
      assert forall j :: 1 <= j < k + 1 ==> req[j] == req[1..][j - 1];
      k + 1
  }

  /** The planning loop over the requested types in order. */
  function PlanAdds(records: seq<Instance>, req: Request): (r: Planned)
    ensures r.Planned? <==> forall i :: 0 <= i < |req| ==> req[i].1 >= 0
    ensures r.Underflow? ==> FirstNegative(req) < |req| && r.kind == req[FirstNegative(req)].0
    decreases |req|
  {
    if |req| == 0 then Planned([])
    else if req[0].1 < 0 then Underflow(req[0].0, [])
    else
      var here := Additions(records, req[0].0, req[0].1);
      assert forall i :: 1 <= i < |req| ==> req[i] == req[1..][i - 1];
      assert FirstNegative(req) == FirstNegative(req[1..]) + 1;
      match PlanAdds(records, req[1..])
      case Planned(rest) => Planned(here + rest)
      case Underflow(t, partial) => Underflow(t, here + partial)
  }

  /** When planning stops at a negative count, it stops at the first one,
      and the records already created are exactly those the planning loop
      creates for the types before it. */
  lemma {:induction false} PlanAddsUnderflow(records: seq<Instance>, req: Request)
    requires PlanAdds(records, req).Underflow?
    ensures var u, i := PlanAdds(records, req), FirstNegative(req);
            && i < |req| && req[i].0 == u.kind
            && PlanAdds(records, req[..i]) == Planned(u.created)
    decreases |req|
  {
    var u := PlanAdds(records, req);
    if req[0].1 < 0 {
      assert req[..0] == [];
    } else {
      var rest := req[1..];
      PlanAddsUnderflow(records, rest);
      var v, k := PlanAdds(records, rest), FirstNegative(rest);
      var here := Additions(records, req[0].0, req[0].1);
      assert u == Underflow(v.kind, here + v.created);
      assert FirstNegative(req) == k + 1;
      var prefix := req[..k + 1];
      assert prefix[0] == req[0] && prefix[1..] == rest[..k];
      assert PlanAdds(records, prefix) == Planned(here + v.created);
    }
  }

  /** Whether the request differs from the current count for some type
      (`changed`), computed type by type as the loop does. */
  function AnyChange(records: seq<Instance>, req: Request): (r: bool)
    ensures r <==> exists i :: 0 <= i < |req| && Count(records, req[i].0) != req[i].1
    decreases |req|
  {
    if |req| == 0 then false
    else if Count(records, req[0].0) != req[0].1 then true
    else
      var r := AnyChange(records, req[1..]);
      assert r ==> exists i :: 0 <= i < |req| && Count(records, req[i].0) != req[i].1 by {
        if r {
          var i :| 0 <= i < |req[1..]| && Count(records, req[1..][i].0) != req[1..][i].1;
          assert req[i + 1] == req[1..][i];
        }
      }
      assert (exists i :: 0 <= i < |req| && Count(records, req[i].0) != req[i].1) ==> r by {
        if exists i :: 0 <= i < |req| && Count(records, req[i].0) != req[i].1 {
          var i :| 0 <= i < |req| && Count(records, req[i].0) != req[i].1;
          assert i > 0;
          assert req[1..][i - 1] == req[i];
        }
      }
      r
  }

  /** Record `x`, preceded by `prior` in creation order, is one of the
      newest of its type beyond the requested count, so it is removed. */
  predicate Surplus(limit: map<string, int>, prior: seq<Instance>, x: Instance) {
    x.kind in limit && Count(prior, x.kind) >= limit[x.kind]
  }

  /** The records marked for removal (`to_remove`), in creation order. */
  function Beyond(records: seq<Instance>, limit: map<string, int>): seq<Instance>
    decreases |records|
  {
    if |records| == 0 then []
    else
      var init := records[..|records| - 1];
      var x := records[|records| - 1];
      Beyond(init, limit) + (if Surplus(limit, init, x) then [x] else [])
  }

  /** The records left once every surplus record for which `gone` holds has
      been deleted; all other records keep their place. */
  function Trim(records: seq<Instance>, limit: map<string, int>, gone: Instance -> bool): seq<Instance>
    decreases |records|
  {
    if |records| == 0 then []
    else
      var init := records[..|records| - 1];
      var x := records[|records| - 1];
      Trim(init, limit, gone) + (if Surplus(limit, init, x) && gone(x) then [] else [x])
  }

  /** Deletion without exception, as the bulk path deletes its `to_remove`. */
  function Everything(x: Instance): bool {
    true
  }

  /** The per-type view of the records after a successful scale: the oldest
      `requested` records when scaling down, the current records followed by
      fresh ones when scaling up, and the current records for a type that
      was not requested. This is the reference the planner is proved
      against. */
  function Expected(records: seq<Instance>, limit: map<string, int>, t: string): seq<Instance>
    requires t in limit ==> limit[t] >= 0
  {
    var current := OfType(records, t);
    if t !in limit then current
    else if limit[t] <= |current| then current[..limit[t]]
    else current + Fresh(t, NextOrdinal(records, t), limit[t] - |current|)
  }

  lemma PrefixOfAppend(a: seq<Instance>, b: seq<Instance>, n: nat)
    requires n <= |a|
    ensures (a + b)[..n] == a[..n]
  {
  }

  lemma SplitLast(records: seq<Instance>)
    requires |records| > 0
    ensures records == records[..|records| - 1] + [records[|records| - 1]]
  {
  }

  lemma SliceOfAppend(a: seq<Instance>, b: seq<Instance>, n: nat)
    requires n <= |a|
    ensures (a + b)[n..] == a[n..] + b
  {
  }

  /** One record at the end of the list: it is marked for removal when it
      is surplus, and it joins its type's records. */
  lemma BeyondLast(records: seq<Instance>, limit: map<string, int>, t: string)
    requires |records| > 0
    ensures var init := records[..|records| - 1];
            var x := records[|records| - 1];
            && (x.kind != t ==> OfType(records, t) == OfType(init, t)
                                && OfType(Beyond(records, limit), t) == OfType(Beyond(init, limit), t))
            && (x.kind == t ==> OfType(records, t) == OfType(init, t) + [x])
            && (x.kind == t && Surplus(limit, init, x) ==>
                  OfType(Beyond(records, limit), t) == OfType(Beyond(init, limit), t) + [x])
            && (x.kind == t && !Surplus(limit, init, x) ==>
                  OfType(Beyond(records, limit), t) == OfType(Beyond(init, limit), t))
  {
    var init := records[..|records| - 1];
    var x := records[|records| - 1];
    SplitLast(records);
    OfTypeAppend(init, [x], t);
    OfTypeSingle(x, t);
    if Surplus(limit, init, x) {
      assert Beyond(records, limit) == Beyond(init, limit) + [x];
      OfTypeAppend(Beyond(init, limit), [x], t);
    } else {
      assert Beyond(records, limit) == Beyond(init, limit) + [];
      assert Beyond(init, limit) + [] == Beyond(init, limit);
    }
    if x.kind != t {
      assert OfType(init, t) + [] == OfType(init, t);
      assert OfType(Beyond(init, limit), t) + [] == OfType(Beyond(init, limit), t);
    }
  }

  /** The records marked for removal are, for each requested type, the
      newest ones beyond the requested count, and nothing else. */
  lemma {:induction false} BeyondOfType(records: seq<Instance>, limit: map<string, int>, t: string)
    requires t in limit ==> limit[t] >= 0
    ensures OfType(Beyond(records, limit), t)
            == if t in limit && limit[t] < Count(records, t) then OfType(records, t)[limit[t]..] else []
    decreases |records|
  {
    if |records| > 0 {
      var init := records[..|records| - 1];
      var x := records[|records| - 1];
      BeyondOfType(init, limit, t);
      BeyondLast(records, limit, t);
      var before, all := OfType(init, t), OfType(records, t);
      var marked, marked0 := OfType(Beyond(records, limit), t), OfType(Beyond(init, limit), t);
      if t !in limit {
        assert marked0 == [] && marked == [];
      } else if x.kind != t {
      } else if |before| >= limit[t] {
        assert Surplus(limit, init, x);
        assert marked == before[limit[t]..] + [x];
        SliceOfAppend(before, [x], limit[t]);
      } else {
        assert !Surplus(limit, init, x);
        assert marked == [];
        assert |all| <= limit[t];
      }
    }
  }

  /** One record at the end of the list: it is deleted exactly when it is
      surplus and `gone` holds for it. */
  lemma TrimLast(records: seq<Instance>, limit: map<string, int>, gone: Instance -> bool, t: string)
    requires |records| > 0
    ensures var init := records[..|records| - 1];
            var x := records[|records| - 1];
            && (x.kind != t || (Surplus(limit, init, x) && gone(x)) ==>
                  OfType(Trim(records, limit, gone), t) == OfType(Trim(init, limit, gone), t))
            && (x.kind == t && !(Surplus(limit, init, x) && gone(x)) ==>
                  OfType(Trim(records, limit, gone), t) == OfType(Trim(init, limit, gone), t) + [x])
  {
    var init := records[..|records| - 1];
    var x := records[|records| - 1];
    var rest := Trim(init, limit, gone);
    if Surplus(limit, init, x) && gone(x) {
      assert Trim(records, limit, gone) == rest + [];
      assert rest + [] == rest;
    } else {
      assert Trim(records, limit, gone) == rest + [x];
      OfTypeAppend(rest, [x], t);
      OfTypeSingle(x, t);
      if x.kind != t {
        assert OfType(rest, t) + [] == OfType(rest, t);
      }
    }
  }

  /** When every record marked for removal has gone, each requested type
      keeps exactly its oldest `requested` records. */
  lemma {:induction false} TrimOfType(records: seq<Instance>, limit: map<string, int>,
                                      gone: Instance -> bool, t: string)
    requires t in limit ==> limit[t] >= 0
    requires forall x :: x in Beyond(records, limit) ==> gone(x)
    ensures OfType(Trim(records, limit, gone), t)
            == if t in limit && limit[t] < Count(records, t) then OfType(records, t)[..limit[t]]
               else OfType(records, t)
    decreases |records|
  {
    if |records| > 0 {
      var init := records[..|records| - 1];
      var x := records[|records| - 1];
      var tail := if Surplus(limit, init, x) then [x] else [];
      assert Beyond(records, limit) == Beyond(init, limit) + tail;
      assert forall y :: y in Beyond(init, limit) ==> gone(y);
      assert Surplus(limit, init, x) ==> x in Beyond(records, limit);
      TrimOfType(init, limit, gone, t);
      TrimLast(records, limit, gone, t);
      BeyondLast(records, limit, t);
      var before, all := OfType(init, t), OfType(records, t);
      var left, left0 := OfType(Trim(records, limit, gone), t), OfType(Trim(init, limit, gone), t);
      if x.kind != t {
        assert left == left0 && all == before;
      } else if t !in limit {
        assert left == left0 + [x] && all == before + [x];
        assert left == all;
      } else if |before| >= limit[t] {
        assert Surplus(limit, init, x) && gone(x);
        assert left == left0;
        assert all == before + [x];
        PrefixOfAppend(before, [x], limit[t]);
        assert limit[t] < |all| && left == all[..limit[t]];
      } else {
        assert !Surplus(limit, init, x);
        assert left == before + [x] && all == before + [x];
        assert !(limit[t] < |all|) && left == all;
      }
    }
  }

  /** Trimming only deletes: every record left was there before. */
  lemma {:induction false} TrimWithin(records: seq<Instance>, limit: map<string, int>, gone: Instance -> bool)
    ensures forall x :: x in Trim(records, limit, gone) ==> x in records
    ensures Distinct(records) ==> Distinct(Trim(records, limit, gone))
    decreases |records|
  {
    if |records| > 0 {
      var init := records[..|records| - 1];
      var x := records[|records| - 1];
      SplitLast(records);
      TrimWithin(init, limit, gone);
      var kept := if Surplus(limit, init, x) && gone(x) then [] else [x];
      if Distinct(records) {
        assert Distinct(init);
        assert x !in init;
        DistinctAppend(Trim(init, limit, gone), kept);
      }
    }
  }

  /** A type's additions are all of that type. */
  lemma OfTypeAdditions(records: seq<Instance>, kind: string, requested: int, t: string)
    ensures OfType(Additions(records, kind, requested), t)
            == if t == kind then Additions(records, kind, requested) else []
  {
    var current := Count(records, kind);
    if requested > current {
      OfTypeFresh(kind, NextOrdinal(records, kind), requested - current, t);
    }
  }

  /** Deleting every surplus record and then appending each type's
      additions leaves every type with its expected records. */
  lemma TrimThenAddOfType(records: seq<Instance>, limit: map<string, int>, gone: Instance -> bool,
                          added: seq<Instance>, t: string)
    requires t in limit ==> limit[t] >= 0
    requires forall x :: x in Beyond(records, limit) ==> gone(x)
    requires OfType(added, t) == if t in limit then Additions(records, t, limit[t]) else []
    ensures OfType(Trim(records, limit, gone) + added, t) == Expected(records, limit, t)
  {
    TrimOfType(records, limit, gone, t);
    var kept, created := OfType(Trim(records, limit, gone), t), OfType(added, t);
    OfTypeAppend(Trim(records, limit, gone), added, t);
    var current := OfType(records, t);
    if t !in limit {
      assert created == [] && kept == current;
      assert kept + [] == kept;
    } else if limit[t] < |current| {
      assert created == [] && kept == current[..limit[t]];
      assert kept + [] == kept;
    } else if limit[t] == |current| {
      assert created == [] && kept == current;
      assert kept + [] == kept;
      assert current[..limit[t]] == current;
    } else {
      assert kept == current;
      assert created == Fresh(t, NextOrdinal(records, t), limit[t] - |current|);
    }
  }

  /** Dropping the first entry of a request keeps the other entries. */
  lemma AsMapTail(req: Request)
    requires DistinctKeys(req) && |req| > 0
    ensures AsMap(req).Keys == Keys(req) && AsMap(req[1..]).Keys == Keys(req[1..])
    ensures Keys(req) == Keys(req[1..]) + {req[0].0}
    ensures req[0].0 !in Keys(req[1..])
    ensures AsMap(req)[req[0].0] == req[0].1
    ensures forall t :: t in Keys(req[1..]) ==> AsMap(req)[t] == AsMap(req[1..])[t]
  {
    AsMapSpec(req);
    AsMapSpec(req[1..]);
    assert Keys(req) == Keys(req[1..]) + {req[0].0};
  }

  /** For each type, the planner creates exactly that type's additions. */
  lemma {:induction false} PlanAddsOfType(records: seq<Instance>, req: Request, t: string)
    requires DistinctKeys(req)
    requires PlanAdds(records, req).Planned?
    ensures OfType(PlanAdds(records, req).added, t)
            == if t in AsMap(req) then Additions(records, t, AsMap(req)[t]) else []
    decreases |req|
  {
    if |req| > 0 {
      var k := req[0].0;
      var here := Additions(records, k, req[0].1);
      var rest := PlanAdds(records, req[1..]);
      assert PlanAdds(records, req).added == here + rest.added;
      PlanAddsOfType(records, req[1..], t);
      OfTypeAppend(here, rest.added, t);
      OfTypeAdditions(records, k, req[0].1, t);
      AsMapTail(req);
      var mine, others := OfType(here, t), OfType(rest.added, t);
      if t == k {
        assert others == [] && mine == here;
        assert here + [] == here;
      } else {
        assert mine == [];
        assert [] + others == others;
      }
    }
  }

  /** When no requested count is below the current one, appending the
      planned records meets every requested count, so the request no
      longer changes anything. */
  lemma AdditionsMeetRequest(records: seq<Instance>, req: Request)
    requires DistinctKeys(req)
    requires forall i :: 0 <= i < |req| ==> req[i].1 >= Count(records, req[i].0)
    ensures PlanAdds(records, req).Planned?
    ensures !AnyChange(records + PlanAdds(records, req).added, req)
  {
    var added := PlanAdds(records, req).added;
    var left := records + added;
    AsMapSpec(req);
    forall i | 0 <= i < |req|
      ensures Count(left, req[i].0) == req[i].1
    {
      var k := req[i].0;
      OfTypeAppend(records, added, k);
      PlanAddsOfType(records, req, k);
      assert AsMap(req)[k] == req[i].1;
      assert |OfType(added, k)| == req[i].1 - Count(records, k);
    }
  }

  /** A type's additions are new records of that type, numbered above
      every ordinal of the type in use, and pairwise distinct. */
  lemma AdditionsFresh(records: seq<Instance>, kind: string, requested: int)
    ensures forall x :: x in Additions(records, kind, requested) ==>
              x.kind == kind && x.num >= NextOrdinal(records, kind)
    ensures Distinct(Additions(records, kind, requested))
  {
  }

  /** Every created record has a requested type and an ordinal above every
      ordinal of that type in use, and no record is created twice. */
  lemma {:induction false} PlanAddsFresh(records: seq<Instance>, req: Request)
    requires DistinctKeys(req)
    requires PlanAdds(records, req).Planned?
    ensures forall x :: x in PlanAdds(records, req).added ==>
              x.kind in Keys(req) && x.num >= NextOrdinal(records, x.kind)
    ensures Distinct(PlanAdds(records, req).added)
    decreases |req|
  {
    if |req| > 0 {
      var k := req[0].0;
      var here := Additions(records, k, req[0].1);
      var rest := PlanAdds(records, req[1..]).added;
      assert PlanAdds(records, req).added == here + rest;
      PlanAddsFresh(records, req[1..]);
      AsMapTail(req);
      AdditionsFresh(records, k, req[0].1);
      DistinctAppend(here, rest);
    }
  }

  /** The process types with at least one record other than a one-off `run`. */
  function LiveTypes(records: seq<Instance>): set<string> {
    set x | x in records && x.kind != Run :: x.kind
  }

  lemma LiveTypesCount(records: seq<Instance>, k: string)
    ensures k in LiveTypes(records) <==> k != Run && Count(records, k) > 0
  {
    if k != Run && Count(records, k) > 0 {
      assert OfType(records, k)[0] in OfType(records, k);
    }
  }

  /** The structure saved after scaling: the caller's structure with each
      type that still has non-`run` records set to its actual count. */
  function Persisted(structure: map<string, int>, records: seq<Instance>): map<string, int> {
    map k | k in structure.Keys + LiveTypes(records) ::
      if k in LiveTypes(records) then Count(records, k) else structure[k]
  }

  /** When the records already match every requested count, the saved
      structure keeps the request, and each other entry is the count of a
      type that still has non-`run` records. */
  lemma PersistedKeepsRequest(limit: map<string, int>, records: seq<Instance>)
    requires forall k :: k in limit && k in LiveTypes(records) ==> Count(records, k) == limit[k]
    ensures Persisted(limit, records).Keys == limit.Keys + LiveTypes(records)
    ensures forall k :: k in limit ==> Persisted(limit, records)[k] == limit[k]
    ensures forall k :: k in Persisted(limit, records) && k !in limit ==>
              k != Run && Persisted(limit, records)[k] == Count(records, k) > 0
  {
    forall k | k in Persisted(limit, records) && k !in limit
      ensures k != Run && Count(records, k) > 0
    {
      LiveTypesCount(records, k);
    }
  }
}

=== FILE: pods.dfy ===
/** `App.list_pods`: the scheduler's pods for the application, without
    one-off `run` pods, projected to name, state, release, type and start
    time, newest first. */
module Pods {
  import opened Basics
  import opened Text
  import opened Records

  /** A pod as the scheduler reports it, reduced to the fields read: its
      name, its `type` and `version` labels, its start time if the status
      has one, and the state name the scheduler resolves it to. */
  datatype RawPod = RawPod(name: string, kind: string, version: string,
                           startTime: Option<string>, state: string)

  /** The projection handed back to callers. */
  datatype Pod = Pod(name: string, state: string, release: string, kind: string, started: string)

  /** An HTTP error of the scheduler client, or any other failure. */
  datatype SchedulerError = HttpError | OtherError(message: string)

  /** The outcome of listing: the pods; nothing at all, since an HTTP error
      is swallowed and the source then returns `None`; or the error raised. */
  datatype Listing = Listed(pods: seq<Pod>) | NothingReturned | Raised(message: string)

  /** A pod without a start time is stamped with `now`, the clock reading
      taken for it. */
  function Project(p: RawPod, now: string): Pod {
    Pod(p.name, p.state, p.version, p.kind,
        match p.startTime case Some(t) => t case None => now)
  }

  /** The projections of the non-`run` pods, in the scheduler's order.
      `stamps[i]` is what the clock reads when pod `i` is projected: the
      source reads it once per pod that lacks a start time. */
  function Projected(raw: seq<RawPod>, stamps: seq<string>): (r: seq<Pod>)
    requires |stamps| == |raw|
    ensures |r| <= |raw|
    ensures forall q :: q in r ==> q.kind != Run
    ensures forall i :: 0 <= i < |raw| && raw[i].kind != Run ==> Project(raw[i], stamps[i]) in r
    ensures forall q :: q in r ==> exists i :: 0 <= i < |raw| && raw[i].kind != Run
                                               && q == Project(raw[i], stamps[i])
    decreases |raw|
  {
    if |raw| == 0 then []
    else
      var rest := Projected(raw[1..], stamps[1..]);
      assert forall i :: 1 <= i < |raw| ==> raw[i] == raw[1..][i - 1] && stamps[i] == stamps[1..][i - 1];
      (if raw[0].kind == Run then [] else [Project(raw[0], stamps[0])]) + rest
  }

  /** A single pod is dropped when it is a `run` pod and projected otherwise. */
  lemma ProjectedOne(p: RawPod, now: string)
    ensures Projected([p], [now]) == if p.kind == Run then [] else [Project(p, now)]
  {
  }

  lemma TailOfAppend<T>(x: seq<T>, y: seq<T>)
    requires |x| > 0
    ensures (x + y)[0] == x[0] && (x + y)[1..] == x[1..] + y
  {
  }

  /** Projection works pod by pod: it keeps the scheduler's order and
      every non-`run` pod, duplicates included. */
  lemma {:induction false} ProjectedAppend(a: seq<RawPod>, sa: seq<string>, b: seq<RawPod>, sb: seq<string>)
    requires |sa| == |a| && |sb| == |b|
    ensures Projected(a + b, sa + sb) == Projected(a, sa) + Projected(b, sb)
    decreases |a|
  {
    if |a| > 0 {
      var head := if a[0].kind == Run then [] else [Project(a[0], sa[0])];
      ProjectedAppend(a[1..], sa[1..], b, sb);
      TailOfAppend(a, b);
      TailOfAppend(sa, sb);
      assert Projected(a + b, sa + sb) == head + Projected(a[1..] + b, sa[1..] + sb);
      assert Projected(a, sa) == head + Projected(a[1..], sa[1..]);
    } else {
      assert a + b == b && sa + sb == sb;
    }
  }

  /** Start times never increase along the sequence (Python string order). */
  predicate NewestFirst(pods: seq<Pod>) {
    forall i, j :: 0 <= i < j < |pods| ==> !Below(pods[i].started, pods[j].started)
  }

  /** The pods started at exactly `when`, in order. */
  function StartedAt(pods: seq<Pod>, when: string): seq<Pod>
    decreases |pods|
  {
    if |pods| == 0 then []
    else (if pods[0].started == when then [pods[0]] else []) + StartedAt(pods[1..], when)
  }

  /** Places `p` before the first pod that did not start later than it. */
  function Insert(p: Pod, pods: seq<Pod>): seq<Pod>
    decreases |pods|
  {
    if |pods| == 0 then [p]
    else if !Below(p.started, pods[0].started) then [p] + pods
    else [pods[0]] + Insert(p, pods[1..])
  }

  /** `sort(key=started, reverse=True)`: a stable sort, newest first. */
  function SortNewestFirst(pods: seq<Pod>): seq<Pod>
    decreases |pods|
  {
    if |pods| == 0 then [] else Insert(pods[0], SortNewestFirst(pods[1..]))
  }

  lemma {:induction false} InsertPermutes(p: Pod, pods: seq<Pod>)
    ensures multiset(Insert(p, pods)) == multiset(pods) + multiset{p}
    decreases |pods|
  {
    if |pods| > 0 && Below(p.started, pods[0].started) {
      InsertPermutes(p, pods[1..]);
      assert pods == [pods[0]] + pods[1..];
    }
  }

  lemma {:induction false} InsertSorted(p: Pod, pods: seq<Pod>)
    requires NewestFirst(pods)
    ensures NewestFirst(Insert(p, pods))
    decreases |pods|
  {
    if |pods| > 0 {
      var r := Insert(p, pods);
      if !Below(p.started, pods[0].started) {
        forall j | 1 <= j < |r|
          ensures !Below(p.started, r[j].started)
        {
          assert r[j] == pods[j - 1];
          if j > 1 {
            AtLeastTransitive(p.started, pods[0].started, pods[j - 1].started);
          }
        }
      } else {
        InsertSorted(p, pods[1..]);
        InsertPermutes(p, pods[1..]);
        var tail := Insert(p, pods[1..]);
        BelowAsymmetric(p.started, pods[0].started);
        forall j | 0 <= j < |tail|
          ensures !Below(pods[0].started, tail[j].started)
        {
          assert tail[j] in multiset(tail);
          if tail[j] != p {
            assert tail[j] in multiset(pods[1..]);
            var k :| 0 <= k < |pods[1..]| && pods[1..][k] == tail[j];
            assert pods[k + 1] == tail[j];
          }
        }
        assert r == [pods[0]] + tail;
      }
    }
  }

  lemma {:induction false} InsertStable(p: Pod, pods: seq<Pod>, when: string)
    ensures StartedAt(Insert(p, pods), when)
            == (if p.started == when then [p] else []) + StartedAt(pods, when)
    decreases |pods|
  {
    if |pods| == 0 {
      assert [p][1..] == [];
    } else if !Below(p.started, pods[0].started) {
      assert ([p] + pods)[1..] == pods;
    } else {
      InsertStable(p, pods[1..], when);
      BelowIrreflexive(p.started);
      assert pods[0].started != p.started;
      var inserted := Insert(p, pods[1..]);
      var r := [pods[0]] + inserted;
      assert r[0] == pods[0] && r[1..] == inserted;
      var mine := if p.started == when then [p] else [];
      var head := if pods[0].started == when then [pods[0]] else [];
      assert StartedAt(r, when) == head + StartedAt(inserted, when);
      assert StartedAt(pods, when) == head + StartedAt(pods[1..], when);
      if p.started == when {
        assert head == [];
        assert [] + (mine + StartedAt(pods[1..], when)) == mine + ([] + StartedAt(pods[1..], when));
      } else {
        assert mine == [];
        assert [] + (head + StartedAt(pods[1..], when)) == head + ([] + StartedAt(pods[1..], when));
      }
    }
  }

  /** The sort returns a permutation of its input, newest first, and pods
      with equal start times keep their relative order. */
  lemma {:induction false} SortNewestFirstCorrect(pods: seq<Pod>)
    ensures multiset(SortNewestFirst(pods)) == multiset(pods)
    ensures NewestFirst(SortNewestFirst(pods))
    ensures forall when :: StartedAt(SortNewestFirst(pods), when) == StartedAt(pods, when)
    decreases |pods|
  {
    if |pods| > 0 {
      var rest := SortNewestFirst(pods[1..]);
      SortNewestFirstCorrect(pods[1..]);
      InsertPermutes(pods[0], rest);
      InsertSorted(pods[0], rest);
      assert pods == [pods[0]] + pods[1..];
      forall when
        ensures StartedAt(SortNewestFirst(pods), when) == StartedAt(pods, when)
      {
        InsertStable(pods[0], rest, when);
      }
    }
  }

  /** `list_pods` on the scheduler's answer: the non-`run` pods newest
      first; nothing when the scheduler answered with an HTTP error; the
      error itself otherwise. */
  function ListPods(response: Result<seq<RawPod>, SchedulerError>, stamps: seq<string>): (r: Listing)
    requires response.Ok? ==> |stamps| == |response.value|
    ensures response == Err(HttpError) <==> r == NothingReturned
    ensures r.Raised? <==> response.Err? && response.error.OtherError?
    ensures r.Listed? ==> forall q :: q in r.pods ==> q.kind != Run
    ensures r.Listed? ==> NewestFirst(r.pods)
    ensures r.Listed? ==> multiset(r.pods) == multiset(Projected(response.value, stamps))
    ensures r.Listed? ==>
              forall when :: StartedAt(r.pods, when) == StartedAt(Projected(response.value, stamps), when)
  {
    match response
    case Err(HttpError) => NothingReturned
    case Err(OtherError(m)) => Raised(m)
    case Ok(raw) =>
      var pods := Projected(raw, stamps);
      SortNewestFirstCorrect(pods);
      var sorted := SortNewestFirst(pods);
      assert forall q :: q in sorted ==> q in multiset(pods);
      Listed(sorted)
  }
}

=== FILE: records.dfy ===
/** The controller's bookkeeping data: instance records (one per replica,
    kept in creation order), their lifecycle states, and the parts of a
    build that drive command derivation and scaling policy. */
module Records {

  /** The reserved process type of one-off command instances. */
  const Run: string := "run"
  /** The reserved process type of image-only and Dockerfile deployments. */
  const Cmd: string := "cmd"
  /** The conventional process type of a Procfile-based web process. */
  const Web: string := "web"

  /** One replica's record: its process type and its ordinal within that type. */
  datatype Instance = Instance(kind: string, num: nat)

  /** Lifecycle states an instance record can be driven into by the scheduler. */
  datatype State = Unstarted | Created | Up | Stopped | Destroyed

  /** The fields of a build the controller reads. Python's `None` and empty
      values are falsy alike in every test the controller makes, so an
      absent commit sha or Dockerfile is the empty string and an absent
      Procfile is the empty map. */
  datatype Build = Build(sha: string, dockerfile: string, procfile: map<string, string>)

  predicate HasSha(b: Build) {
    |b.sha| > 0
  }

  predicate HasDockerfile(b: Build) {
    |b.dockerfile| > 0
  }

  predicate HasProcfile(b: Build) {
    b.procfile != map[]
  }

  /** The records of process type `t`, in creation order. */
  function OfType(records: seq<Instance>, t: string): (r: seq<Instance>)
    ensures |r| <= |records|
    ensures forall i :: 0 <= i < |r| ==> r[i].kind == t
    ensures forall x :: x in r <==> x in records && x.kind == t
    decreases |records|
  {
    if |records| == 0 then []
    else (if records[0].kind == t then [records[0]] else []) + OfType(records[1..], t)
  }

  /** Number of records of process type `t`. */
  function Count(records: seq<Instance>, t: string): nat {
    |OfType(records, t)|
  }

  /** Largest ordinal among `records`, or 0 when there is none
      (`max([...] or [0])`, `Max('num') or 0`). */
  function MaxNum(records: seq<Instance>): (m: nat)
    ensures forall x :: x in records ==> x.num <= m
    ensures |records| == 0 ==> m == 0
    ensures |records| > 0 ==> exists x :: x in records && x.num == m
    decreases |records|
  {
    if |records| == 0 then 0
    else
      var rest := MaxNum(records[1..]);
      if records[0].num > rest then records[0].num else rest
  }

  /** The ordinal a new record of type `t` receives: one past the largest in use. */
  function NextOrdinal(records: seq<Instance>, t: string): (n: nat)
    ensures n >= 1
    ensures forall x :: x in records && x.kind == t ==> x.num < n
    ensures n == 1 || exists x :: x in records && x.kind == t && x.num == n - 1
  {
    MaxNum(OfType(records, t)) + 1
  }

  /** `n` new records of type `t` numbered `from`, `from + 1`, ... */
  function Fresh(t: string, from: nat, n: nat): (r: seq<Instance>)
    ensures |r| == n
    ensures forall i :: 0 <= i < n ==> r[i] == Instance(t, from + i)
  {
    seq(n, i requires 0 <= i < n => Instance(t, from + i))
  }

  /** No record appears twice: every (type, ordinal) pair is unique. */
  predicate Distinct(records: seq<Instance>) {
    forall i, j :: 0 <= i < j < |records| ==> records[i] != records[j]
  }

  /** Selecting by type distributes over concatenation. */
  lemma {:induction false} OfTypeAppend(a: seq<Instance>, b: seq<Instance>, t: string)
    ensures OfType(a + b, t) == OfType(a, t) + OfType(b, t)
    decreases |a|
  {
    if |a| == 0 {
      assert a + b == b;
    } else {
      assert (a + b)[1..] == a[1..] + b;
      OfTypeAppend(a[1..], b, t);
    }
  }

  lemma OfTypeSingle(x: Instance, t: string)
    ensures OfType([x], t) == if x.kind == t then [x] else []
  {
    assert [x][1..] == [];
  }

  /** Fresh records are all of their type, and there are exactly `n` of them. */
  lemma OfTypeFresh(t: string, from: nat, n: nat, u: string)
    ensures OfType(Fresh(t, from, n), u) == if u == t then Fresh(t, from, n) else []
  {
    var f := Fresh(t, from, n);
    if u == t {
      OfTypeAllOfKind(f, t);
    } else {
      OfTypeNoneOfKind(f, u);
    }
  }

  lemma {:induction false} OfTypeAllOfKind(s: seq<Instance>, t: string)
    requires forall i :: 0 <= i < |s| ==> s[i].kind == t
    ensures OfType(s, t) == s
    decreases |s|
  {
    if |s| > 0 {
      OfTypeAllOfKind(s[1..], t);
    }
  }

  lemma OfTypeNoneOfKind(s: seq<Instance>, t: string)
    requires forall i :: 0 <= i < |s| ==> s[i].kind != t
    ensures OfType(s, t) == []
  {
  }

  /** Concatenating two duplicate-free sequences with no common element
      gives a duplicate-free sequence. */
  lemma DistinctAppend(a: seq<Instance>, b: seq<Instance>)
    requires Distinct(a) && Distinct(b)
    requires forall x :: x in a ==> x !in b
    ensures Distinct(a + b)
  {
    var s := a + b;
    forall i, j | 0 <= i < j < |s|
      ensures s[i] != s[j]
    {
      if j >= |a| && i < |a| {
        assert s[i] in a && s[j] == b[j - |a|];
      } else if i >= |a| {
        assert s[i] == b[i - |a|] && s[j] == b[j - |a|];
      }
    }
  }
}

=== FILE: scale.dfy ===
/** `App.scale`: validate the request, plan additions and removals, carry
    them out through the scheduler (bulk or per instance) and compute the
    structure that is saved. Records are the application's instance
    records in creation order; the result carries the records persisted
    when the call returns or raises. */
module Scaling {
  import opened Basics
  import opened Records
  import opened ScalePlan
  import opened Lifecycle

  datatype ScaleError =
    | NoBuild                    // the latest release has no build
    | UndeclaredType(kind: string)  // the build does not declare a requested type
    | NegativeRequest(kind: string) // a negative count ran the removal loop dry
    | SchedulerFailed(kind: string) // the bulk scale of a type raised
    | Batch(error: BatchError)      // a per-instance create or destroy batch failed

  /** A successful scale: whether anything changed, the records afterwards,
      the structure saved, and whether a start warning was logged. */
  datatype Scaled = Scaled(changed: bool, records: seq<Instance>, structure: map<string, int>, warned: bool)

  /** A failed scale: the error raised and the records persisted by then. */
  datatype Failed = Failed(error: ScaleError, records: seq<Instance>)

  /** A requested entry whose count changes and whose bulk scale call fails. */
  predicate Rejected(records: seq<Instance>, sched: Scheduler, entry: (string, int)) {
    Count(records, entry.0) != entry.1 && !sched.scales(entry.0)
  }

  /** Where the bulk loop stops: the position of the first rejected entry,
      or the request's length when none is rejected. */
  function RejectedAt(records: seq<Instance>, req: Request, sched: Scheduler): (i: nat)
    ensures i <= |req|
    ensures forall j :: 0 <= j < i ==> !Rejected(records, sched, req[j])
    ensures i < |req| ==> Rejected(records, sched, req[i])
    decreases |req|
  {
    if |req| == 0 then 0
    else if Rejected(records, sched, req[0]) then 0
    else
      var k := RejectedAt(records, req[1..], sched);
      assert forall j :: 1 <= j < k + 1 ==> req[j] == req[1..][j - 1];
      k + 1
  }

  /** The first type whose count changes and whose bulk scale call fails;
      the source aborts the loop there. */
  function FirstRejected(records: seq<Instance>, req: Request, sched: Scheduler): (r: Option<string>)
    ensures r.None? <==> forall i :: 0 <= i < |req| ==>
                           Count(records, req[i].0) == req[i].1 || sched.scales(req[i].0)
    ensures r.Some? ==> exists i :: 0 <= i < |req| && req[i].0 == r.value
                                    && Count(records, r.value) != req[i].1 && !sched.scales(r.value)
                                    && forall j :: 0 <= j < i ==>
                                         Count(records, req[j].0) == req[j].1 || sched.scales(req[j].0)
  {
    var i := RejectedAt(records, req, sched);
    if i < |req| then Some(req[i].0) else None
  }

  /** The predicate saying which surplus records the per-instance path deletes. */
  function DestroyedBy(sched: Scheduler): Instance -> bool {
    (x: Instance) => sched.destroy(x) == Destroyed
  }

  /** The surplus records a scheduler's path deletes once it succeeds. */
  function Gone(sched: Scheduler): Instance -> bool {
    if sched.bulk then Everything else DestroyedBy(sched)
  }

  /** Carrying out a plan that changes something: the records afterwards
      and whether a start warning was logged, or the failure. */
  function Execute(records: seq<Instance>, req: Request, added: seq<Instance>, sched: Scheduler)
    : (r: Result<(seq<Instance>, bool), Failed>)
    requires DistinctKeys(req)
    ensures sched.bulk ==> (r.Ok? <==> FirstRejected(records, req, sched).None?)
    ensures !sched.bulk ==>
              (r.Ok? <==> (forall x :: x in added ==> sched.create(x) == Created)
                          && forall x :: x in Beyond(records, AsMap(req)) ==> sched.destroy(x) == Destroyed)
    ensures sched.bulk && r.Err? ==> r.error.error == SchedulerFailed(FirstRejected(records, req, sched).value)
    ensures !sched.bulk && r.Ok? ==> (r.value.1 <==> exists x :: x in added && sched.start(x) != Up)
  {
    var limit := AsMap(req);
    if sched.bulk then
      match FirstRejected(records, req, sched)
      case Some(t) => Err(Failed(SchedulerFailed(t), records + added))
      case None => Ok((Trim(records, limit, Everything) + added, false))
    else
      var started := StartContainers(added, sched);
      if started.failure.Some? then
        Err(Failed(Batch(started.failure.value), records + started.kept))
      else
        var removal := DestroyContainers(Beyond(records, limit), sched);
        var live := Trim(records, limit, DestroyedBy(sched)) + added;
        if removal.failed then Err(Failed(Batch(DestroyFailed), live))
        else Ok((live, started.warned))
  }

  /** When `scale` succeeds: there is a build, every requested type is
      declared and every count is non-negative, and a request that changes
      something is carried out without error. */
  predicate Succeeds(records: seq<Instance>, build: Option<Build>, req: Request, sched: Scheduler)
    requires DistinctKeys(req)
  {
    && build.Some?
    && (forall i :: 0 <= i < |req| ==> Declared(build.value.procfile, req[i].0) && req[i].1 >= 0)
    && (AnyChange(records, req) ==> Execute(records, req, PlanAdds(records, req).added, sched).Ok?)
  }

  /** `App.scale` on the application's records, the latest release's build
      and the requested structure. */
  function Scale(records: seq<Instance>, build: Option<Build>, req: Request, sched: Scheduler)
    : (r: Result<Scaled, Failed>)
    requires DistinctKeys(req)
    ensures build.None? ==> r == Err(Failed(NoBuild, records))
    ensures build.Some? ==>
              ((r.Err? && r.error.error.UndeclaredType?)
               <==> exists i :: 0 <= i < |req| && !Declared(build.value.procfile, req[i].0))
    ensures r.Err? && r.error.error.UndeclaredType? ==> r.error.records == records
    ensures r.Ok? ==> forall i :: 0 <= i < |req| ==> req[i].1 >= 0
    ensures r.Ok? ==>
              (r.value.changed <==> exists i :: 0 <= i < |req| && Count(records, req[i].0) != req[i].1)
    ensures r.Ok? && !r.value.changed ==> r.value.records == records && !r.value.warned
    ensures r.Ok? <==> Succeeds(records, build, req, sched)
    ensures r.Err? && r.error.error.NegativeRequest? ==>
              PlanAdds(records, req).Underflow?
              && r.error.records == records + PlanAdds(records, req).created
    ensures r.Err? && r.error.error.SchedulerFailed? ==>
              sched.bulk && PlanAdds(records, req).Planned?
              && r.error.records == records + PlanAdds(records, req).added
    ensures r.Err? && r.error.error == Batch(CreateFailed) ==> r.error.records == records
    ensures r.Err? && r.error.error == Batch(DestroyFailed) ==>
              !sched.bulk && PlanAdds(records, req).Planned?
              && var added := PlanAdds(records, req).added;
                 if exists x :: x in added && sched.create(x) != Created
                 then r.error.records == records + Select(added, sched.destroy, Destroyed, false)
                 else r.error.records == Trim(records, AsMap(req), DestroyedBy(sched)) + added
  {
    if build.None? then Err(Failed(NoBuild, records))
    else match FirstUndeclared(req, build.value.procfile)
      case Some(t) => Err(Failed(UndeclaredType(t), records))
      case None =>
        match PlanAdds(records, req)
        case Underflow(t, created) => Err(Failed(NegativeRequest(t), records + created))
        case Planned(added) =>
          var limit := AsMap(req);
          if !AnyChange(records, req) then
            Ok(Scaled(false, records, Persisted(limit, records), false))
          else
            match Execute(records, req, added, sched)
            case Err(f) => Err(f)
            case Ok(done) => Ok(Scaled(true, done.0, Persisted(limit, done.0), done.1))
  }

  /** A successful execution deleted every surplus record and appended the
      created ones. */
  lemma ExecuteShape(records: seq<Instance>, req: Request, added: seq<Instance>, sched: Scheduler)
    requires DistinctKeys(req)
    requires Execute(records, req, added, sched).Ok?
    ensures Execute(records, req, added, sched).value.0
            == Trim(records, AsMap(req), Gone(sched)) + added
    ensures forall x :: x in Beyond(records, AsMap(req)) ==> Gone(sched)(x)
  {
    if !sched.bulk {
      var removal := DestroyContainers(Beyond(records, AsMap(req)), sched);
      assert !removal.failed;
    }
  }

  /** A negative count is rejected, after validation, at the first such
      type; the records planned for the earlier types have been created by
      then and stay persisted. */
  lemma ScaleRejectsNegative(records: seq<Instance>, build: Option<Build>, req: Request, sched: Scheduler)
    requires DistinctKeys(req)
    requires build.Some? && forall i :: 0 <= i < |req| ==> Declared(build.value.procfile, req[i].0)
    requires exists i :: 0 <= i < |req| && req[i].1 < 0
    ensures var r, i := Scale(records, build, req, sched), FirstNegative(req);
            && r.Err? && r.error.error.NegativeRequest?
            && i < |req| && r.error.error.kind == req[i].0
            && PlanAdds(records, req[..i]).Planned?
            && r.error.records == records + PlanAdds(records, req[..i]).added
  {
    PlanAddsUnderflow(records, req);
  }

  /** When no requested count differs, every type already has its expected records. */
  lemma UnchangedOfType(records: seq<Instance>, req: Request, t: string)
    requires DistinctKeys(req)
    requires forall i :: 0 <= i < |req| ==> req[i].1 >= 0
    requires !AnyChange(records, req)
    ensures t in AsMap(req) ==> AsMap(req)[t] >= 0
    ensures OfType(records, t) == Expected(records, AsMap(req), t)
  {
    var limit := AsMap(req);
    AsMapSpec(req);
    if t in limit {
      var i :| 0 <= i < |req| && req[i].0 == t;
      assert Count(records, t) == limit[t];
      assert OfType(records, t)[..limit[t]] == OfType(records, t);
    }
  }

  /** A successful execution leaves every type with its expected records. */
  lemma ChangedOfType(records: seq<Instance>, build: Option<Build>, req: Request, sched: Scheduler, t: string)
    requires DistinctKeys(req)
    requires Succeeds(records, build, req, sched) && AnyChange(records, req)
    ensures t in AsMap(req) ==> AsMap(req)[t] >= 0
    ensures OfType(Execute(records, req, PlanAdds(records, req).added, sched).value.0, t)
            == Expected(records, AsMap(req), t)
  {
    assert PlanAdds(records, req).Planned?;
    var limit := AsMap(req);
    var added := PlanAdds(records, req).added;
    assert Execute(records, req, added, sched).Ok?;
    AsMapSpec(req);
    assert t in limit ==> limit[t] >= 0;
    ExecuteShape(records, req, added, sched);
    PlanAddsOfType(records, req, t);
    TrimThenAddOfType(records, limit, Gone(sched), added, t);
  }

  /** The per-type shape of the records after a successful scale: for each
      requested type the oldest `requested` records survive when scaling
      down, fresh records numbered from one past the largest ordinal follow
      the current ones when scaling up, and unrequested types are left
      alone. */
  lemma ScaleOfType(records: seq<Instance>, build: Option<Build>, req: Request, sched: Scheduler, t: string)
    requires DistinctKeys(req)
    requires Succeeds(records, build, req, sched)
    ensures t in AsMap(req) ==> AsMap(req)[t] >= 0
    ensures OfType(Scale(records, build, req, sched).value.records, t) == Expected(records, AsMap(req), t)
  {
    assert PlanAdds(records, req).Planned?;
    if !AnyChange(records, req) {
      UnchangedOfType(records, req, t);
    } else {
      ChangedOfType(records, build, req, sched, t);
    }
  }

  /** After a successful scale every requested type has exactly the
      requested number of records and every other type keeps its count. */
  lemma ScaleReachesRequest(records: seq<Instance>, build: Option<Build>, req: Request, sched: Scheduler)
    requires DistinctKeys(req)
    requires Succeeds(records, build, req, sched)
    ensures var after := Scale(records, build, req, sched).value.records;
            (forall i :: 0 <= i < |req| ==> Count(after, req[i].0) == req[i].1)
            && (forall t :: t !in Keys(req) ==> Count(after, t) == Count(records, t))
  {
    var after := Scale(records, build, req, sched).value.records;
    AsMapSpec(req);
    forall i | 0 <= i < |req|
      ensures Count(after, req[i].0) == req[i].1
    {
      ScaleOfType(records, build, req, sched, req[i].0);
    }
    forall t | t !in Keys(req)
      ensures Count(after, t) == Count(records, t)
    {
      ScaleOfType(records, build, req, sched, t);
    }
  }

  /** Scaling to a structure the records already have reports no change,
      touches no record and saves the same structure. In particular,
      repeating a successful scale is a no-op, whatever the scheduler does
      the second time. */
  lemma ScaleIdempotent(records: seq<Instance>, build: Option<Build>, req: Request,
                        sched: Scheduler, sched': Scheduler)
    requires DistinctKeys(req)
    requires Succeeds(records, build, req, sched)
    ensures var first := Scale(records, build, req, sched).value;
            Scale(first.records, build, req, sched')
            == Ok(Scaled(false, first.records, first.structure, false))
  {
    var first := Scale(records, build, req, sched).value;
    ScaleReachesRequest(records, build, req, sched);
    assert !AnyChange(first.records, req);
  }

  /** The saved structure keeps every requested count, and adds the actual
      count of every other process type that still has non-`run` records. */
  lemma ScalePersistsRequest(records: seq<Instance>, build: Option<Build>, req: Request, sched: Scheduler)
    requires DistinctKeys(req)
    requires Succeeds(records, build, req, sched)
    ensures var s := Scale(records, build, req, sched).value;
            && s.structure.Keys == Keys(req) + LiveTypes(s.records)
            && (forall i :: 0 <= i < |req| ==> s.structure[req[i].0] == req[i].1)
            && (forall t :: t in s.structure && t !in Keys(req) ==>
                  t != Run && s.structure[t] == Count(s.records, t) > 0)
  {
    var s := Scale(records, build, req, sched).value;
    ScaleReachesRequest(records, build, req, sched);
    var limit := AsMap(req);
    AsMapSpec(req);
    forall k | k in limit && k in LiveTypes(s.records)
      ensures Count(s.records, k) == limit[k]
    {
      var i :| 0 <= i < |req| && req[i].0 == k;
    }
    PersistedKeepsRequest(limit, s.records);
  }

  /** Records created by a successful scale carry ordinals above every
      ordinal of their type in use before, so duplicate-free records stay
      duplicate-free. */
  lemma ScaleFreshOrdinals(records: seq<Instance>, build: Option<Build>, req: Request, sched: Scheduler)
    requires DistinctKeys(req)
    requires Succeeds(records, build, req, sched)
    ensures var after := Scale(records, build, req, sched).value.records;
            forall x :: x in after && x !in records ==> x.num >= NextOrdinal(records, x.kind)
    ensures Distinct(records) ==> Distinct(Scale(records, build, req, sched).value.records)
  {
    var after := Scale(records, build, req, sched).value.records;
    if AnyChange(records, req) {
      var limit := AsMap(req);
      var added := PlanAdds(records, req).added;
      var gone := Gone(sched);
      ExecuteShape(records, req, added, sched);
      assert after == Trim(records, limit, gone) + added;
      TrimWithin(records, limit, gone);
      PlanAddsFresh(records, req);
      if Distinct(records) {
        DistinctAppend(Trim(records, limit, gone), added);
      }
    }
  }

  /** A bulk scale that only scales up and is refused by the scheduler
      fails, but the records it created stay persisted: the source performs
      no rollback. Repeating the same request then finds every requested
      count already met, reports no change and never calls the scheduler
      again, whatever the scheduler would now do. */
  lemma RefusedScaleUpIsNotRetried(records: seq<Instance>, build: Option<Build>, req: Request,
                                   sched: Scheduler, sched': Scheduler)
    requires DistinctKeys(req)
    requires build.Some?
    requires forall i :: 0 <= i < |req| ==>
               Declared(build.value.procfile, req[i].0) && req[i].1 >= Count(records, req[i].0)
    requires sched.bulk && FirstRejected(records, req, sched).Some?
    ensures var r := Scale(records, build, req, sched);
            && r.Err? && r.error.error.SchedulerFailed?
            && Scale(r.error.records, build, req, sched')
               == Ok(Scaled(false, r.error.records, Persisted(AsMap(req), r.error.records), false))
  {
    AdditionsMeetRequest(records, req);
    var after := records + PlanAdds(records, req).added;
    var t := FirstRejected(records, req, sched).value;
    assert Scale(records, build, req, sched) == Err(Failed(SchedulerFailed(t), after)) by {
      assert FirstUndeclared(req, build.value.procfile).None?;
      assert AnyChange(records, req);
      assert Execute(records, req, PlanAdds(records, req).added, sched)
             == Err(Failed(SchedulerFailed(t), after));
    }
    assert Scale(after, build, req, sched')
           == Ok(Scaled(false, after, Persisted(AsMap(req), after), false)) by {
      assert FirstUndeclared(req, build.value.procfile).None?;
      assert PlanAdds(after, req).Planned?;
      assert !AnyChange(after, req);
    }
  }

  /** Ordinals are not unique over an application's history: once a type
      is scaled to zero its records are gone, and the next record of that
      type is numbered 1 again. */
  lemma ScaleToZeroResetsOrdinals(records: seq<Instance>, build: Option<Build>, req: Request,
                                  sched: Scheduler, t: string)
    requires DistinctKeys(req)
    requires Succeeds(records, build, req, sched)
    requires exists i :: 0 <= i < |req| && req[i] == (t, 0)
    ensures NextOrdinal(Scale(records, build, req, sched).value.records, t) == 1
  {
    ScaleOfType(records, build, req, sched, t);
    var i :| 0 <= i < |req| && req[i] == (t, 0);
    AsMapSpec(req);
    assert AsMap(req)[t] == 0;
  }
}

=== FILE: text.dfy ===
/** String helpers the controller relies on: decimal rendering of integers
    (`"{}".format(n)`), counting a character (`str.count`) and Python's
    ordering of `str` values (code-point lexicographic). */
module Text {

  predicate IsDigit(c: char) {
    '0' <= c <= '9'
  }

  predicate AllDigits(s: string) {
    forall i :: 0 <= i < |s| ==> IsDigit(s[i])
  }

  function DigitChar(d: nat): (c: char)
    requires d < 10
    ensures IsDigit(c)
    ensures c as int - '0' as int == d
  {
    "0123456789"[d]
  }

  function DigitValue(c: char): nat
    requires IsDigit(c)
  {
    c as int - '0' as int
  }

  /** Decimal rendering of a natural number, as `str(n)` produces it. */
  function NatToString(n: nat): (s: string)
    ensures |s| > 0
    ensures AllDigits(s)
    decreases n
  {
    if n < 10 then [DigitChar(n)] else NatToString(n / 10) + [DigitChar(n % 10)]
  }

  /** Reads a string of decimal digits back as a number. */
  function ParseNat(s: string): nat
    requires AllDigits(s)
    decreases |s|
  {
    if |s| == 0 then 0 else 10 * ParseNat(s[..|s| - 1]) + DigitValue(s[|s| - 1])
  }

  /** Rendering a number and reading it back gives the number. */
  lemma {:induction false} ParseNatToString(n: nat)
    ensures ParseNat(NatToString(n)) == n
    decreases n
  {
    var s := NatToString(n);
    if n >= 10 {
      ParseNatToString(n / 10);
      assert s[..|s| - 1] == NatToString(n / 10);
    }
  }

  /** Two numbers render to the same string only if they are equal. */
  lemma NatToStringInjective(a: nat, b: nat)
    requires NatToString(a) == NatToString(b)
    ensures a == b
  {
    ParseNatToString(a);
    ParseNatToString(b);
  }

  /** Number of occurrences of `c` in `s` (Python's `s.count(c)` for one character). */
  function CountChar(s: string, c: char): (n: nat)
    ensures n <= |s|
    ensures n == 0 <==> c !in s
    decreases |s|
  {
    if |s| == 0 then 0 else (if s[0] == c then 1 else 0) + CountChar(s[1..], c)
  }

  lemma {:induction false} CountCharAppend(a: string, b: string, c: char)
    ensures CountChar(a + b, c) == CountChar(a, c) + CountChar(b, c)
    decreases |a|
  {
    if |a| == 0 {
      assert a + b == b;
    } else {
      assert (a + b)[1..] == a[1..] + b;
      CountCharAppend(a[1..], b, c);
    }
  }

  /** Python's `a < b` on `str`: lexicographic comparison by code point,
      where a proper prefix sorts first. */
  predicate Below(a: string, b: string)
    decreases |a|
  {
    if |b| == 0 then false
    else if |a| == 0 then true
    else a[0] < b[0] || (a[0] == b[0] && Below(a[1..], b[1..]))
  }

  /** The string order is asymmetric: never both `a < b` and `b < a`. */
  lemma {:induction false} BelowAsymmetric(a: string, b: string)
    ensures Below(a, b) ==> !Below(b, a)
    decreases |a|
  {
    if |a| > 0 && |b| > 0 && a[0] == b[0] {
      BelowAsymmetric(a[1..], b[1..]);
    }
  }

  /** `a < a` never holds. */
  lemma {:induction false} BelowIrreflexive(a: string)
    ensures !Below(a, a)
    decreases |a|
  {
    if |a| > 0 {
      BelowIrreflexive(a[1..]);
    }
  }

  lemma {:induction false} BelowTransitive(a: string, b: string, c: string)
    requires Below(a, b) && Below(b, c)
    ensures Below(a, c)
    decreases |a|
  {
    if |a| > 0 && a[0] == b[0] && b[0] == c[0] {
      BelowTransitive(a[1..], b[1..], c[1..]);
    }
  }

  /** Any two strings are equal or ordered one way or the other. */
  lemma {:induction false} BelowTotal(a: string, b: string)
    ensures a == b || Below(a, b) || Below(b, a)
    decreases |a|
  {
    if |a| > 0 && |b| > 0 && a[0] == b[0] {
      BelowTotal(a[1..], b[1..]);
      if a[1..] == b[1..] {
        assert a == [a[0]] + a[1..] && b == [b[0]] + b[1..];
      }
    }
  }

  /** "Not below" (`a >= b`) is transitive. */
  lemma AtLeastTransitive(a: string, b: string, c: string)
    requires !Below(a, b) && !Below(b, c)
    ensures !Below(a, c)
  {
    BelowTotal(a, b);
    BelowTotal(b, c);
    if Below(c, b) && Below(b, a) {
      BelowTransitive(c, b, a);
    }
    if Below(a, c) {
      BelowAsymmetric(a, c);
      BelowIrreflexive(a);
    }
  }
}

=== FILE: validators.dfy ===
/** Field validators of an application: the identifier must be a
    cluster-compatible name and every count of the structure non-negative. */
module Validators {
  import opened Basics

  /** The source raises one fixed message per validator. `kind` is the
      model's witness: the type the check stopped at, which the source's
      message ("Must be greater than or equal to zero") does not name. */
  datatype ValidationError =
    | BadIdentifier
    | NegativeCount(kind: string)

  /** A character the identifier pattern `[a-z0-9-]` admits. */
  predicate IdChar(c: char) {
    ('a' <= c <= 'z') || ('0' <= c <= '9') || c == '-'
  }

  /** The language the identifier check promises: one or more characters,
      each a lower-case letter, a digit or a hyphen. */
  predicate IsDockerCompatible(s: string) {
    |s| > 0 && forall i :: 0 <= i < |s| ==> IdChar(s[i])
  }

  /** What `re.match(r'^[a-z0-9-]+$', s)` actually accepts: Python's `$`
      also matches just before a newline that ends the string, so one
      trailing line feed slips past the character class. */
  predicate PythonPatternMatches(s: string) {
    IsDockerCompatible(s)
    || (|s| >= 2 && s[|s| - 1] == '\n' && IsDockerCompatible(s[..|s| - 1]))
  }

  /** Length of the longest prefix of `s` made only of identifier characters. */
  method ScanIdChars(s: string) returns (k: nat)
    ensures k <= |s|
    ensures forall i :: 0 <= i < k ==> IdChar(s[i])
    ensures k < |s| ==> !IdChar(s[k])
  {
    k := 0;
    while k < |s| && IdChar(s[k])
      invariant k <= |s|
      invariant forall i :: 0 <= i < k ==> IdChar(s[i])
    {
      k := k + 1;
    }
  }

  /** The identifier check as the source performs it, end-of-string anchor
      included: the scan must stop at the end or just before a final
      line feed. */
  method ValidateIdAsWritten(s: string) returns (r: Result<(), ValidationError>)
    ensures r.Ok? <==> PythonPatternMatches(s)
  {
    var k := ScanIdChars(s);
    if k >= 1 && (k == |s| || (k == |s| - 1 && s[k] == '\n')) {
      r := Ok(());
      if k == |s| - 1 {
        assert s[..|s| - 1] == s[..k];
      }
    } else {
      r := Err(BadIdentifier);
    }
  }

  /** `"app\n"` passes the check as written although a line feed is not an
      identifier character. */
  lemma TrailingNewlineAccepted()
    ensures PythonPatternMatches("app\n")
    ensures !IsDockerCompatible("app\n")
  {
    var s := "app\n";
    assert s[..|s| - 1] == "app";
    assert !IdChar(s[3]);
  }

  /** The identifier check with the promised language: every character
      must be an identifier character, with no allowance for a line feed. */
  method ValidateId(s: string) returns (r: Result<(), ValidationError>)
    ensures r.Ok? <==> IsDockerCompatible(s)
    ensures r.Err? ==> r.error == BadIdentifier
  {
    var k := ScanIdChars(s);
    if k >= 1 && k == |s| {
      r := Ok(());
    } else {
      r := Err(BadIdentifier);
    }
  }

  /** The structure check: fails exactly when some count is negative, and
      the error carries one offending type as a witness. The order in which the source
      visits the values is irrelevant to the verdict. */
  method ValidateStructure(structure: map<string, int>) returns (r: Result<(), ValidationError>)
    ensures r.Ok? <==> forall k :: k in structure ==> structure[k] >= 0
    ensures r.Err? ==> r.error.NegativeCount? && r.error.kind in structure
                       && structure[r.error.kind] < 0
  {
    var pending := structure.Keys;
    while pending != {}
      invariant pending <= structure.Keys
      invariant forall k :: k in structure && k !in pending ==> structure[k] >= 0
      decreases pending
    {
      var k :| k in pending;
      if structure[k] < 0 {
        return Err(NegativeCount(k));
      }
      pending := pending - {k};
    }
    r := Ok(());
  }
}
